=== FILE: README.md ===
# Blob arena: a Dafny model of the per-tick rules

The blob arena is a small browser game. Players and computer-controlled NPCs
are round blobs that run, jump and land on platforms. A blob that falls onto
another one from above eats it and grows. Eaten blobs come back after a
respawn delay. This project models the rules of one simulation tick and
proves properties of them. It covers two revisions of the game:

- **the modular revision** (`js/config.js`, `js/entities.js`, `js/input.js`,
  `js/gameplay.js`): four players, eight NPCs, four platforms, and an
  immediate player respawn;
- **the single-file revision** (`game.js`): the same rules with other
  constants, one platform, and a roster built around the connected gamepads.

The model is written once. It is parameterised by a `Rules` record (respawn
times, spawn radii, revision tag) and an `Arena` (world and platform list).
Each revision instantiates it: `ModularRules` with `CreateWorldConfig`, and
`LegacyRules` with `LegacyArena`.

Entities are immutable records, and every operation is a pure function from
the old record to the new one. Where the game mutates an entity in place, the
model returns the updated copy. The roster is a `seq<Entity>`. Both phases of
`update` are folds over it:

- movement, in roster order, where each NPC sees the roster as updated so far;
- collision, over every index pair `i < j`, in the order of the source loops.

Modules:

- `Base`: exact-real helpers, JavaScript's truncating `%` (`JsRem`), and the
  `MathLib` record of foreign math functions with its laws (`Lawful`).
- `Config`: constants, key maps, colours, world and platform layouts.
- `Entities`: the entity record, construction, evolution stages, growth,
  eating, death, respawn and shard splitting.
- `Input`: keyboard/gamepad intent and the NPC pursuit policy.
- `Gameplay`: movement, landing, blob collision and the two-phase tick.
- `Legacy`: what only the single-file revision does (its roster
  construction), and lemmas that instantiate the shared rules with its
  constants.

Several quantities the game reads from its environment are parameters here:

- Each `Math.random()` call is an explicit `Draw`, a real in [0, 1).
- `Math.sqrt`, `Math.cos` and `Math.sin` are fields of a `MathLib`.
  `Math.hypot(dx, dy)` is `sqrt(dx*dx + dy*dy)`.
- `navigator.getGamepads()` is a `Snapshot`. Connected pads are given to the
  roster builders as the list of their indices.
- The pressed-key set is part of the `Snapshot`.

An entity's `Consistent` predicate holds when its radius is the non-negative
square root of its mass, its base radius is non-negative, and its stage
matches its eaten count. It is the invariant that the tick preserves (when
`sqrt` is lawful).

## Model

| member | source | states |
|---|---|---|
| Base.JsRem | js/entities.js:23 | the remainder has the dividend's sign and is smaller in magnitude than the divisor, as JavaScript's `%` (not Dafny's Euclidean one) |
| Base.HypotOfLength | js/gameplay.js:10 | a lawful hypot of a vector whose squared length is k squared (k non-negative) is exactly k |
| Config.CreateWorldConfig | js/config.js:17-33 | gravity is 2400, the floor is 48 above the bottom, and there are exactly four platforms, each with positive width and height |
| Config.LegacyArena | game.js:5-17 | the single-file world has the same gravity and floor line and exactly one platform, 300 by 26 |
| Config.KeymapFor | js/entities.js:34 | ids below the table length get their own key map; every later id falls back to the last one |
| Config.ThresholdsAscend | js/config.js:3 | the evolution thresholds are three positive, strictly ascending counts |
| Config.KeymapsDistinct | js/config.js:1-12 | there is one key map per human player and no two players share one |
| Entities.Stage | js/entities.js:75-81 | the stage for any threshold list is at most the number of thresholds |
| Entities.EvolutionStage | js/entities.js:75-81 | the stage is the number of the thresholds 2, 4 and 7 that the eaten count has reached, hence at most 3 |
| Entities.StageMonotone | js/entities.js:75-81 | more meals never give a lower stage, for any threshold list |
| Entities.StageIsRank | js/entities.js:75-81 | with strictly ascending thresholds, threshold i is reached exactly when i is below the stage |
| Entities.StageExamples | js/entities.js:75-81 | eaten counts 0, 1 and 2 give stages 0, 0 and 1; 4 gives 2; 7 gives the top stage 3 |
| Entities.CreateEntity | js/entities.js:14-53 | a new entity is alive, at rest, at its base size with mass equal to radius squared, unfed, with fresh gear and AI timers in their draw ranges; it is grounded exactly for a modular NPC, and only modular players get a control slot (their id); its x lies in the spawn band that starts 100 from the left wall and is as wide as the arena less 180 |
| Entities.SpawnX | js/entities.js:23 | the spawn x of every id lies at least 100 from the left wall and less than 100 plus the arena width less 180 (its magnitude when the arena is narrower) |
| Entities.ModularSpawn | js/entities.js:14-53 | modular players have radius 24 and drop in 8 below the top; NPCs have radius in [15, 21) and stand on the floor; every new entity is consistent |
| Entities.InitialPlayer | js/entities.js:59-65 | modular player i has id i and is bound to the i-th connected pad if there is one |
| Entities.BuildEntities | js/entities.js:55-73 | the modular roster holds four players then eight NPCs with ids equal to their positions; the first pads go to the first players; the NPCs start grounded and unbound; every entry is consistent |
| Entities.Grow | js/entities.js:87-90 | mass rises by exactly the eaten mass and, under a lawful sqrt, the radius is the root of the new mass; nothing else changes |
| Entities.ScheduleRespawn | js/entities.js:124-127 | the entity is dead and counts down its kind's respawn delay; nothing else changes |
| Entities.RemoveWithoutRespawn | js/entities.js:147-150 | the entity is dead with an infinite timer that no tick ever expires |
| Entities.EvolveIfNeeded | game.js:236-242 | the stage is re-derived from the eaten count, and vy loses 100 exactly when the stage rose |
| Entities.EatLaunch | js/entities.js:144 | the eater's launch speed is the larger of 620 and 760 less twice its radius: at least both, and equal to one of them |
| Entities.HandleEat | js/entities.js:129-145 | the victim dies (for good when respawn is skipped); the eater gains the victim's mass and one meal, takes the stage of its new count, and leaves with vy = -max(620, 760 - 2 radius) whatever its stage did; position and identity are untouched; consistency is kept |
| Entities.RespawnEntity | js/entities.js:92-122 | a respawned entity is alive, at rest, invulnerable for 0.8, back at base size, unfed, with fresh gear; players reappear 8 below the top, airborne, at their slot's x; NPCs stand on the floor at least 80 from each wall |
| Entities.ModularPlayerRespawnSpot | js/entities.js:112-117 | a modular player reappears at x = 100 + slot * (width - 200) / 3, where the slot defaults to its id |
| Entities.Shard | js/entities.js:155-174 | a shard is a living, airborne player shard at the shard radius with mass its square, bound to the victim's slot, keys, pad and colour, no higher than 8 below the top; it leaves a quarter of the victim's radius out along its angle, at 420 along the angle sideways and 380 plus 100 along it upwards, so between -420 and 420 sideways and 280 to 480 upwards |
| Entities.CreateSplitShards | js/entities.js:152-178 | a split yields exactly `count` such shards with consecutive ids from `firstId`, shard k launched at angle k of the even spread, all consistent when the shard radius is non-negative |
| Entities.ShardRange | js/entities.js:154-176 | the shards from a given index to `count` have consecutive ids, the shard properties, and each its own angle and launch offset and velocity |
| Entities.ShardAnglesSpread | js/entities.js:156 | with two or more shards the angles start at -0.85 pi, end at 0 and rise strictly from shard to shard |
| Input.KeyboardIntent | js/input.js:16-21 | move is (right held) - (left held), so both keys cancel; jump holds exactly when the jump key is held |
| Input.BoundPad | js/input.js:23-25 | a pad is read exactly through the entity's bound index when a pad is connected there, and always is when the revision reads pads at all; the single-file revision reads one only for a gamepad-sourced player |
| Input.InputForPlayer | js/input.js:15-38 | move is in {-1, 0, 1}; a bound stick beyond 0.2 either way forces the direction, otherwise the keyboard move stands; jump is the jump key or pad button 0, 1 or 11; without a pad the intent is the keyboard's |
| Input.KeyboardPlayerIgnoresPads | game.js:129-140 | a single-file keyboard player's intent depends only on the held keys, never on the pads |
| Input.StickOverridesKeys | js/input.js:26-33 | a bound stick past the 0.2 dead zone sets the move whatever keys are held, while the jump is the jump key or a pad jump button |
| Input.PickTarget | js/input.js:42-53 | there is no target exactly when no other living entity exists; otherwise the target is another living entity of least weighted distance, strictly nearer than every earlier candidate (the first on ties) |
| Input.InputForNpc | js/input.js:40-81 | with no target the intent is neutral and the AI state unchanged; otherwise the NPC heads for a target beyond 14, an expired roam timer is redrawn into [0.8, 2.0), a chase jump sets the cooldown into [0.55, 0.95), a hop needs ground and cooldown <= -0.2 and sets it into [0.7, 1.2), and without a jump the cooldown just counts down |
| Input.InputForEntity | js/input.js:83-86 | NPCs get the pursuit decision; players get their control intent and keep their AI state |
| Input.ChooseTarget | js/input.js:45-53 | the forward scan with a running best finds exactly the target characterised by `PickTarget` |
| Input.TargetUnique | js/input.js:45-53 | a candidate that is no farther than every candidate and strictly nearer than every earlier one is the chosen target |
| Gameplay.MaxSpeed | js/gameplay.js:43-45 | the speed cap is the larger of 230 and the kind's base speed less 2.2 per unit of radius: at least both, and equal to one of them |
| Gameplay.ClampSpeed | js/gameplay.js:49 | the clamped speed lies within the cap, equals the input when that already does, sits at the nearer bound otherwise, and is never larger in magnitude |
| Gameplay.JumpSpeed | js/gameplay.js:52 | the take-off speed is the larger of 430 and the kind's jump power less 3.2 per unit of radius: at least both, and equal to one of them |
| Gameplay.WallClamp | js/gameplay.js:62-69 | a blob past the left wall is put on it and one past the right wall on that, each with its speed reversed and damped to 35% (both walls in turn when the arena is narrower than the blob); inside it is unchanged; the speed never grows |
| Gameplay.LandingY | js/gameplay.js:77-92 | there is no landing exactly when no platform qualifies; otherwise the result rests on a qualifying platform, is the highest such rest, and never raises the blob |
| Gameplay.Glide | js/gameplay.js:59-69 | moving by a velocity and bouncing never speeds the blob up, leaves it between the walls when the arena is wide enough, and away from the walls is the plain move |
| Gameplay.Steer | js/gameplay.js:45-69 | the horizontal speed is within the cap, the blob ends between the walls when the arena is wide enough, and with no move intent the speed decays to at most 85% of what it was |
| Gameplay.SteerInside | js/gameplay.js:47-59 | away from the walls the new velocity is v, the old one plus 1800 per second of move intent, damped to 85% and capped, and the blob moves by exactly v times the tick |
| Gameplay.SteerUncapped | js/gameplay.js:47-59 | when the accelerated, damped velocity is within the cap and the move stays inside the walls, the blob takes exactly that velocity and moves by it |
| Gameplay.Fly | js/gameplay.js:42-75 | only kinematic fields and the held-jump flag change, the horizontal part being the steering step; a move that would sink below the floor ends on the floor at rest and grounded; otherwise gravity and velocity apply and the blob stays grounded only if it was and did not jump |
| Gameplay.Land | js/gameplay.js:77-98 | without a crossed platform nothing changes; otherwise the blob rests, grounded, on the top of a crossed platform, the highest of them, never higher up than before, and where it stood if it was at vertical rest |
| Gameplay.UpdateMovement | js/gameplay.js:42-99 | speed stays within the cap, x between the walls, y above the floor line; a floor hit leaves it grounded at rest on the floor; after the flight it lands exactly when a platform is crossed, on the highest crossed top, and is otherwise in free flight |
| Gameplay.Separate | js/gameplay.js:15-22 | only the two centres move, and their midpoint is unchanged |
| Gameplay.Bounce | js/gameplay.js:32-38 | each blob leaves with the other's old velocity times 0.92, so the velocity sum is damped to 92% |
| Gameplay.Settle | js/gameplay.js:24-39 | a one-sided stomp is a meal by the stomper; otherwise the blobs bounce; identity, invulnerability, base size and position are kept; one blob always survives |
| Gameplay.SettleKeepsConsistent | js/gameplay.js:24-39 | a meal or a bounce between consistent blobs leaves both consistent |
| Gameplay.ResolveBlobCollision | js/gameplay.js:4-40 | a dead, invulnerable, apart or coincident pair is left as is; otherwise it is separated and settled; the midpoint is kept, no blob is revived, at most one dies, and consistency is kept |
| Gameplay.CollisionKeepsConsistent | js/gameplay.js:15-39 | separation followed by settling keeps consistent blobs consistent |
| Gameplay.StompEats | js/gameplay.js:24-28 | after a one-sided stomp the stomper eats: the victim waits out its kind's delay; the eater gains its mass and one meal, the new stage and the launch speed |
| Gameplay.NoStompBounces | js/gameplay.js:31-38 | without a one-sided stomp both survive with swapped, damped velocities and unchanged masses |
| Gameplay.DeathIffOneSidedStomp | js/gameplay.js:24-39 | both blobs survive a collision exactly when the stomp tests agree |
| Gameplay.PairsFrom | js/gameplay.js:117-121 | the pair loops from row i on produce every pair p < q with p at least i, and nothing else, in strictly increasing order |
| Gameplay.RowThenRest | js/gameplay.js:117-118 | row i of the inner loop followed by the later rows covers every pair from row i on, in strictly increasing order |
| Gameplay.Pairs | js/gameplay.js:117-121 | every pair of roster indices i < j appears, in the order of the nested loops |
| Gameplay.PairsVisitedOnce | js/gameplay.js:117-121 | no pair is resolved twice in a tick |
| Gameplay.CollideAt | js/gameplay.js:119 | resolving one pair changes only those two roster entries, as the pairwise collision says |
| Gameplay.Phase2 | js/gameplay.js:117-121 | the collision phase keeps the roster's length, ids, kinds and base sizes, leaves dead and invulnerable entities untouched, and keeps every entity consistent |
| Gameplay.DeadStep | js/gameplay.js:103-107 | a dead entity's timer counts down, and it respawns (invulnerable) once the timer has run out |
| Gameplay.Aged | js/gameplay.js:109-111 | a running invulnerability counts down by the tick and an expired one is left as it is; nothing else changes |
| Gameplay.LiveStep | js/gameplay.js:109-114 | a living entity ages its invulnerability, reads its intent and moves by exactly that intent, keeping its identity, size and meals and ending within its speed cap, the walls and the floor |
| Gameplay.Step | js/gameplay.js:102-115 | dead entries take the dead step; a living one takes its live step on the roster as the loop has left it, with its own invulnerability aged, and stays alive within its speed cap, the walls and the floor; identity and consistency are kept |
| Gameplay.Phase1 | js/gameplay.js:102-115 | the movement phase keeps ids, kinds and base sizes, gives every dead entry exactly its dead step, leaves every living one alive within its speed cap, the walls and the floor, and keeps consistency |
| Gameplay.Phase1InOrder | js/gameplay.js:102-115 | the movement phase is an in-order fold: entry k is slot k's step on the roster whose earlier slots have already moved and whose later slots have not |
| Gameplay.Phase1Head | js/gameplay.js:102-115 | the first slot the phase visits steps on the roster exactly as it was handed in |
| Gameplay.Update | js/gameplay.js:101-122 | a tick keeps the roster's length, ids and kinds, and keeps every entity consistent under a lawful sqrt |
| Gameplay.DeadEntityTick | js/gameplay.js:101-122 | over a whole tick a dead entity only counts down (or respawns); it never moves or collides, not even right after respawning |
| Gameplay.DeadAiFrozen | game.js:343-354 | a dead NPC's pursuit state does not change during a tick |
| Gameplay.RemovedStaysRemoved | js/gameplay.js:103-106 | an entity removed for good is left exactly as it was |
| Gameplay.EatenPlayerReturns | js/config.js:4-5 | with the modular zero player delay, an eaten player is alive, invulnerable and at base size after the next tick |
| Gameplay.HeldJumpDoesNotRefire | js/gameplay.js:51-55 | after a tick with jump held, holding it again cannot fire another jump |
| Gameplay.SeparationMakesContact | js/gameplay.js:15-22 | two overlapping blobs pushed apart by half the overlap each end exactly in contact |
| Gameplay.PushContact | js/gameplay.js:15-22 | on bare coordinates, the push turns a centre distance below the contact distance into exactly the contact distance |
| Gameplay.WallScenario | js/gameplay.js:62-65 | a radius-20 blob 5 past the left wall is put back at x = 20 moving the other way at 35% speed |
| Gameplay.StompScenario | js/gameplay.js:24-28 | a blob falling at 300 onto one 30 below it eats it |
| Legacy.LegacySpawn | game.js:53-82 | single-file players have radius 30, NPCs radius in [19, 27); all start on the floor line, airborne, coloured by id, unbound, consistent |
| Legacy.KeyboardPlayers | game.js:101-104 | the first players are keyboard players with ids 0, 1, ... and no pad |
| Legacy.BindPad | game.js:106-111 | the pad's owner is switched to the gamepad (created as a gamepad player if missing); nobody else changes |
| Legacy.AssignPads | game.js:106-111 | pad k goes to player k + 2; players outside that range are untouched; appended players are consistent players with their position as id |
| Legacy.LegacyPlayers | game.js:96-111 | there are 2 players with no pads and pads + 2 otherwise; ids are positions; the first two use the keyboard and every later one the pad of its index minus 2 |
| Legacy.LegacyNpcs | game.js:113-116 | eight airborne, unbound, consistent NPCs with ids continuing from the offset |
| Legacy.BuildLegacy | game.js:96-119 | the single-file roster is the players then the NPCs, with ids equal to positions, players exactly first, pad bindings as above, and every entry consistent |
| Legacy.PadNeedsGamepadSource | game.js:137 | a single-file player not sourced from a gamepad reads only the keyboard, while the modular revision reads any bound pad |
| Legacy.LegacyRespawn | game.js:207-234 | single-file players reappear at x = 90 + (180 id) rem (width - 180), 8 below the top; NPCs on the floor; delays are 2.2 s and 3.2 s |
| Legacy.SinglePlatformLanding | game.js:327-340 | landing on the one platform is the same swept test as the general highest-platform landing |
| Legacy.EatenPlayerWaits | game.js:343-348 | a single-file eaten player stays dead, counting down, while its 2.2 s have not run out |

## Left out

- Rendering is not modelled: `js/render.js` and all drawing in `game.js`. It is presentation only.
- Event wiring is not modelled: `bindInput`, the `window` listeners, the status text, the frame loop, `restart`, and the chaos-flip rotation in `js/main.js`. The pressed-key set and the pads they maintain are the `Snapshot` parameter.
- Melee attacks and the armor pickup are not modelled: no rule in the core reads them. Their fields are carried as the `Gear` record, which construction and respawn reset.
- Single-file entities carry `FreshGear` as well, although `game.js` has no gear fields.
- The split trigger is not modelled: no core file decides when a blob splits. `GIANT_SPLIT_SHARD_COUNT` and `SHARD_BASE_RADIUS` are imported but `js/config.js` does not define them, so they are the parameters `count` and `shardRadius`.
- Numbers are exact reals, not IEEE doubles: no rounding, no NaN.
- Infinity is `Timer.Forever` for the respawn timer, and `None` for the landing search's starting value.
- A world of width exactly 180 makes the spawn `x` NaN in JavaScript. It is excluded by a precondition (`width != 180`, and `Placeable` for the single-file respawn).
- `Math.sqrt`, `Math.cos` and `Math.sin` are supplied functions. Their expected laws (`Lawful`) are assumed only where a property needs them.
- `Math.random()` calls are named draws. The model does not fix how many are consumed or in which order.
- Boundary containment (radius <= x <= width - radius) is promised only right after movement. Collision separation and growth can break it, and the source does not restore it.
- Base.JsRem: states the sign and bound of the remainder, not its relation `a == q * d + r` to the quotient.
- Input.InputForNpc: in the dead zone it states only that the move is 0 or the roam direction, not which 10% draw picks the roam direction.
- Gameplay.Update: states length, identity and consistency over the whole tick. The per-entity facts are in the lemmas about it, in `Phase1` and `Phase1InOrder` (each entry's step on the roster as updated so far) and in `Phase2`.

## Notes on the source

- The single-file `buildEntities` computes `max(2, pads + 1)` keyboard players. It then assigns pad k to player k + 2, which appends one more player when a pad is connected. The roster therefore has 2 players with no pads and pads + 2 otherwise. The model follows the code (`LegacyPlayerCount`).
- `onGround` is cleared only by a jump. A blob that walks off a platform keeps `onGround` until it lands, and can jump once in mid-air. The model follows the code.

=== FILE: base.dfy ===
/** Numeric vocabulary shared by every module of the arena model.

    The game is written against JavaScript numbers; here every quantity is an
    exact `real`, so there is no rounding, no NaN and no infinity. Each
    `Math.random()` call becomes an explicit `Draw`, and the three foreign
    functions the rules use (`Math.sqrt`, `Math.cos`, `Math.sin`) are handed
    in as a `MathLib` record whose expected laws are the ghost predicate
    `Lawful`. */
module Base {

  datatype Option<+T> = None | Some(value: T)

  /** One result of `Math.random()`: a real in [0, 1). */
  type Draw = r: real | 0.0 <= r < 1.0

  /** `Math.max` on two reals. */
  function Max(a: real, b: real): (m: real)
    ensures a <= m && b <= m
    ensures m == a || m == b
  {
    if a >= b then a else b
  }

  /** `Math.min` on two reals. */
  function Min(a: real, b: real): (m: real)
    ensures m <= a && m <= b
    ensures m == a || m == b
  {
    if a <= b then a else b
  }

  /** `Math.abs` on a real. */
  function Abs(x: real): (r: real)
    ensures 0.0 <= r
    ensures r == x || r == -x
  {
    if x < 0.0 then -x else x
  }

  /** JavaScript's `a % d` on integers: the remainder of division truncated
      toward zero, which takes the sign of the dividend. Dafny's own `%` is
      Euclidean, so the two differ for negative operands. A zero divisor
      yields NaN in JavaScript and is excluded here. */
  function JsRem(a: int, d: int): (r: int)
    requires d != 0
    ensures 0 <= a ==> 0 <= r < (if d < 0 then -d else d)
    ensures a < 0 ==> -(if d < 0 then -d else d) < r <= 0
  {
    var m := if d < 0 then -d else d;
    if a >= 0 then a % m else -((-a) % m)
  }

  /** The foreign functions the rules call, passed in explicitly. */
  datatype MathLib = MathLib(sqrt: real -> real, cos: real -> real, sin: real -> real)

  /** What the rules rely on: `sqrt` is the non-negative square root on
      non-negative arguments, and `cos`/`sin` stay in [-1, 1]. */
  ghost predicate Lawful(m: MathLib)
  {
    && (forall v: real :: 0.0 <= v ==> 0.0 <= m.sqrt(v) && m.sqrt(v) * m.sqrt(v) == v)
    && (forall a: real :: -1.0 <= m.cos(a) <= 1.0)
    && (forall a: real :: -1.0 <= m.sin(a) <= 1.0)
  }

  /** `Math.hypot(dx, dy)`. */
  function Hypot(m: MathLib, dx: real, dy: real): real
  {
    m.sqrt(dx * dx + dy * dy)
  }

  /** `Math.PI` as the double the engine uses. */
  const Pi: real := 3.141592653589793

  lemma ProductPositive(a: real, b: real)
    requires 0.0 < a && 0.0 < b
    ensures 0.0 < a * b
  {
  }

  lemma SquareNonNegative(x: real)
    ensures 0.0 <= x * x
  {
    if x < 0.0 {
      ProductPositive(-x, -x);
      assert x * x == (-x) * (-x);
    } else if x > 0.0 {
      ProductPositive(x, x);
    }
  }

  /** A draw in [0, 1] scales a non-negative span to a point within it. */
  lemma DrawScale(d: real, w: real)
    requires 0.0 <= d <= 1.0
    ensures 0.0 <= w ==> 0.0 <= d * w <= w
  {
    if 0.0 < d && 0.0 < w {
      ProductPositive(d, w);
      if d < 1.0 {
        ProductPositive(1.0 - d, w);
        assert w - d * w == (1.0 - d) * w;
      }
    }
  }

  /** Squaring is strictly increasing on the non-negative reals. */
  lemma SquareStrictlyMonotone(s: real, k: real)
    requires 0.0 <= s < k
    ensures s * s < k * k
  {
    var g := k - s;
    assert 0.0 < g;
    assert 0.0 <= s * g;
    assert 0.0 < k * g;
    assert k * k - s * s == s * g + k * g;
  }

  /** The lawful square root of a square is the magnitude. */
  lemma SqrtOfSquare(m: MathLib, k: real)
    requires Lawful(m)
    requires 0.0 <= k
    ensures m.sqrt(k * k) == k
  {
    SquareNonNegative(k);
    var s := m.sqrt(k * k);
    assert 0.0 <= s && s * s == k * k;
    if s < k {
      SquareStrictlyMonotone(s, k);
    } else if s > k {
      SquareStrictlyMonotone(k, s);
    }
  }

  /** A lawful hypotenuse of a vector whose squared length is k * k is k. */
  lemma HypotOfLength(m: MathLib, x: real, y: real, k: real)
    requires Lawful(m)
    requires 0.0 <= k && x * x + y * y == k * k
    ensures Hypot(m, x, y) == k
  {
    SqrtOfSquare(m, k);
  }
}

=== FILE: config.dfy ===
/** The numeric constants and arena layouts of both revisions of the game:
    the modular revision (js/config.js) and the older single-file revision
    (game.js). Everything that differs between them is gathered in a `Rules`
    record, so the rest of the model is written once. */
module Config {
  import opened Base

  /** Key codes a player steers with. */
  datatype KeyMap = KeyMap(left: string, right: string, jump: string)

  /** The immutable world. Width and height come from the canvas, whose
      dimensions are integers. */
  datatype World = World(width: nat, height: nat, gravity: real, floorY: real)

  /** A static platform given by its centre and its full width and height. */
  datatype Platform = Platform(x: real, y: real, w: real, h: real)

  /** The world together with its ordered platform list. */
  datatype Arena = Arena(world: World, platforms: seq<Platform>)

  /** Which revision's branches apply where the two differ in structure. */
  datatype Revision = Modular | Legacy

  /** The constants that distinguish the two revisions. */
  datatype Rules = Rules(
    revision: Revision,
    playerRespawnTime: real,
    npcRespawnTime: real,
    playerBaseRadius: real,
    npcRadiusLow: real,    // NPC base radius is npcRadiusLow + draw * npcRadiusSpan
    npcRadiusSpan: real)

  // ---- js/config.js ----

  const HumanPlayerCount: nat := 4
  const NpcCount: nat := 8
  const EvolutionThresholds: seq<int> := [2, 4, 7]
  const PlayerRespawnTime: real := 0.0
  const NpcRespawnTime: real := 2.0

  const Keymaps: seq<KeyMap> := [
    KeyMap("KeyA", "KeyD", "KeyW"),
    KeyMap("ArrowLeft", "ArrowRight", "ArrowUp"),
    KeyMap("KeyJ", "KeyL", "KeyI"),
    KeyMap("Numpad4", "Numpad6", "Numpad8")
  ]

  const PlayerColors: seq<string> := ["#ff2d55", "#00e5ff", "#ffd60a", "#00f57a"]
  const NpcColor: string := "#8b93a6"

  const ModularRules: Rules := Rules(Modular, PlayerRespawnTime, NpcRespawnTime, 24.0, 15.0, 6.0)

  /** `createWorldConfig`: the world and the four platforms of the modular revision. */
  function CreateWorldConfig(width: nat, height: nat): (c: Arena)
    ensures c.world.width == width && c.world.height == height
    ensures c.world.gravity == 2400.0
    ensures c.world.floorY == height as real - 48.0
    ensures |c.platforms| == 4
    ensures forall i :: 0 <= i < |c.platforms| ==> 0.0 < c.platforms[i].w && 0.0 < c.platforms[i].h
  {
    var world := World(width, height, 2400.0, height as real - 48.0);
    var w := width as real;
    var h := height as real;
    Arena(world, [
      Platform(w * 0.5, h * 0.53, 380.0, 26.0),
      Platform(w * 0.25, h * 0.68, 270.0, 24.0),
      Platform(w * 0.75, h * 0.68, 270.0, 24.0),
      Platform(w * 0.5, h * 0.36, 220.0, 22.0)
    ])
  }

  // ---- game.js ----

  const LegacyNpcCount: nat := 8
  const LegacyPlayerRespawnTime: real := 2.2
  const LegacyNpcRespawnTime: real := 3.2
  const LegacyColors: seq<string> :=
    ["#ef4444", "#22c55e", "#a78bfa", "#f97316", "#06b6d4", "#eab308", "#f43f5e", "#84cc16"]

  const LegacyRules: Rules :=
    Rules(Legacy, LegacyPlayerRespawnTime, LegacyNpcRespawnTime, 30.0, 19.0, 8.0)

  /** `WORLD` and `PLATFORM` of the single-file revision: one platform. */
  function LegacyArena(width: nat, height: nat): (c: Arena)
    ensures c.world.width == width && c.world.height == height
    ensures c.world.gravity == 2400.0
    ensures c.world.floorY == height as real - 48.0
    ensures |c.platforms| == 1 && c.platforms[0].w == 300.0 && c.platforms[0].h == 26.0
  {
    Arena(World(width, height, 2400.0, height as real - 48.0),
          [Platform(width as real * 0.5, height as real * 0.53, 300.0, 26.0)])
  }

  // ---- shared lookups ----

  /** `KEYMAPS[id] || KEYMAPS[KEYMAPS.length - 1]`: ids past the table fall
      back to its last entry. */
  function KeymapFor(id: nat): (m: KeyMap)
    ensures m in Keymaps
    ensures id < |Keymaps| ==> m == Keymaps[id]
    ensures |Keymaps| <= id ==> m == Keymaps[|Keymaps| - 1]
  {
    if id < |Keymaps| then Keymaps[id] else Keymaps[|Keymaps| - 1]
  }

  predicate StrictlyAscending(ts: seq<int>)
  {
    forall i, j :: 0 <= i < j < |ts| ==> ts[i] < ts[j]
  }

  /** The thresholds ascend strictly and are all positive, so a fresh
      entity (eaten count 0) is at stage 0. */
  lemma ThresholdsAscend()
    ensures StrictlyAscending(EvolutionThresholds)
    ensures forall i :: 0 <= i < |EvolutionThresholds| ==> 0 < EvolutionThresholds[i]
    ensures |EvolutionThresholds| == 3
  {
  }

  /** There is exactly one key map per human player, and no two players share one. */
  lemma KeymapsDistinct()
    ensures |Keymaps| == HumanPlayerCount
    ensures forall i, j :: 0 <= i < j < |Keymaps| ==> Keymaps[i] != Keymaps[j]
  {
    forall i, j | 0 <= i < j < |Keymaps|
      ensures Keymaps[i] != Keymaps[j]
    {
      assert Keymaps[i].left != Keymaps[j].left;
    }
  }
}

=== FILE: entities.dfy ===
/** Entity records and their lifecycle: construction, the initial roster,
    evolution stages, growth, eating, elimination, respawn and the split into
    shards (js/entities.js, and the same operations of game.js). Every
    operation is a pure function from the old record to the new one. */
module Entities {
  import opened Base
  import opened Config

  datatype Kind = Player | Npc

  /** How a legacy-revision player is controlled; the modular revision
      never reads it. */
  datatype Source = Keyboard | Gamepad | Ai

  /** A direction of travel: -1 (left) or +1 (right). */
  type Dir = d: int | d == -1 || d == 1 witness 1

  /** A respawn countdown; `Forever` is `Number.POSITIVE_INFINITY`, the timer
      of an entity removed for good. */
  datatype Timer = Finite(seconds: real) | Forever
  {
    /** `timer -= dt`; infinity minus a finite amount stays infinite. */
    function Tick(dt: real): Timer
    {
      match this
      case Finite(s) => Finite(s - dt)
      case Forever => Forever
    }

    /** `timer <= 0`. */
    predicate Expired()
    {
      Finite? && seconds <= 0.0
    }
  }

  /** The NPC pursuit policy's private state. */
  datatype AiState = AiState(jumpCooldown: real, roamDir: Dir, roamTimer: real)

  /** Melee and armor state. No rule in this model reads it; it is carried
      so that construction and respawn can be stated in full. */
  datatype Gear = Gear(
    facing: int,
    attackHeld: bool,
    attackTimer: real,
    attackCooldown: real,
    hasArmor: bool,
    armorSide: int,
    doubleJumpCooldown: real)

  const FreshGear: Gear := Gear(1, false, 0.0, 0.0, false, 0, 0.0)

  datatype Entity = Entity(
    id: nat,
    kind: Kind,
    source: Source,
    controlSlot: Option<nat>,
    isShard: bool,
    x: real,
    y: real,
    vx: real,
    vy: real,
    radius: real,
    baseRadius: real,
    mass: real,
    alive: bool,
    onGround: bool,
    jumpHeld: bool,
    color: string,
    keyboardMap: KeyMap,
    gamepadIndex: Option<nat>,
    eatenCount: nat,
    evolutionStage: nat,
    respawnTimer: Timer,
    invulnTimer: real,
    gear: Gear,
    ai: AiState)

  /** The random draws `createEntity` makes: the NPC size jitter and the
      three initial AI values. */
  datatype SpawnDraws = SpawnDraws(size: Draw, cooldown: Draw, roamDir: Draw, roamTime: Draw)

  /** `Math.random() < 0.5 ? -1 : 1`. */
  function CoinDir(d: Draw): Dir
  {
    if d < 0.5 then -1 else 1
  }

  // ---------------------------------------------------------------------
  // Evolution
  // ---------------------------------------------------------------------

  /** `getEvolutionStage`: one stage per threshold reached, counting the
      thresholds in order. */
  function Stage(thresholds: seq<int>, eaten: int): (s: nat)
    ensures s <= |thresholds|
  {
    if |thresholds| == 0 then 0
    else
      var last := |thresholds| - 1;
      Stage(thresholds[..last], eaten) + (if eaten >= thresholds[last] then 1 else 0)
  }

  /** The stage of the game's own thresholds [2, 4, 7]: how many of them
      the eaten count has reached. */
  function EvolutionStage(eaten: int): (s: nat)
    ensures s == (if 2 <= eaten then 1 else 0) + (if 4 <= eaten then 1 else 0) + (if 7 <= eaten then 1 else 0)
    ensures s <= 3
  {
    assert EvolutionThresholds[..2] == [2, 4];
    assert [2, 4][..1] == [2];
    assert [2][..0] == [];
    assert Stage([2], eaten) == (if 2 <= eaten then 1 else 0);
    assert Stage([2, 4], eaten) == Stage([2], eaten) + (if 4 <= eaten then 1 else 0);
    Stage(EvolutionThresholds, eaten)
  }

  /** More meals never mean a lower stage, whatever the thresholds. */
  lemma {:induction false} StageMonotone(thresholds: seq<int>, n: int, m: int)
    requires n <= m
    ensures Stage(thresholds, n) <= Stage(thresholds, m)
  {
    if |thresholds| > 0 {
      StageMonotone(thresholds[..|thresholds| - 1], n, m);
    }
  }

  /** With strictly ascending thresholds the stage is the rank of the eaten
      count among them: threshold i has been reached exactly when i is below
      the stage. */
  lemma {:induction false} StageIsRank(thresholds: seq<int>, n: int)
    requires StrictlyAscending(thresholds)
    ensures forall i :: 0 <= i < |thresholds| ==> (i < Stage(thresholds, n) <==> thresholds[i] <= n)
  {
    if |thresholds| > 0 {
      var last := |thresholds| - 1;
      var front := thresholds[..last];
      assert StrictlyAscending(front);
      StageIsRank(front, n);
      if thresholds[last] <= n && last > 0 {
        // every earlier threshold is smaller, so the whole front has been reached
        assert front[last - 1] == thresholds[last - 1] < thresholds[last];
        assert Stage(front, n) == last;
      }
    }
  }

  /** The game's stages: counts 0, 1, 2 give stages 0, 0, 1, and seven meals
      reach the top stage 3. */
  lemma StageExamples()
    ensures EvolutionStage(0) == 0 && EvolutionStage(1) == 0 && EvolutionStage(2) == 1
    ensures EvolutionStage(4) == 2 && EvolutionStage(7) == 3
  {
  }

  // ---------------------------------------------------------------------
  // Well-formedness
  // ---------------------------------------------------------------------

  /** The record-level invariants every entity keeps: radius is the square
      root of mass, the base radius is non-negative, and the stage is the
      stage of the eaten count. */
  predicate Consistent(e: Entity)
  {
    && 0.0 <= e.radius
    && e.radius * e.radius == e.mass
    && 0.0 <= e.baseRadius
    && e.evolutionStage == EvolutionStage(e.eatenCount)
  }

  /** Consistency depends only on the size and meal fields. */
  lemma SameShape(e: Entity, f: Entity)
    requires f.radius == e.radius && f.mass == e.mass && f.baseRadius == e.baseRadius
    requires f.eatenCount == e.eatenCount && f.evolutionStage == e.evolutionStage
    ensures Consistent(e) ==> Consistent(f)
  {
  }

  predicate AllConsistent(roster: seq<Entity>)
  {
    forall k :: 0 <= k < |roster| ==> Consistent(roster[k])
  }

  // ---------------------------------------------------------------------
  // Construction
  // ---------------------------------------------------------------------

  function ColorFor(rules: Rules, id: nat, kind: Kind): string
  {
    match rules.revision
    case Modular => if kind == Player then PlayerColors[id % |PlayerColors|] else NpcColor
    case Legacy => LegacyColors[id % |LegacyColors|]
  }

  /** `100 + (id * 129) % (world.width - 180)`: the spawn spread of both revisions. */
  function SpawnX(world: World, id: nat): (x: real)
    requires world.width != 180
    ensures 100.0 <= x < 100.0 + (if world.width < 180 then 180 - world.width else world.width - 180) as real
  {
    100.0 + JsRem(id * 129, world.width - 180) as real
  }

  /** `createEntity`. The modular revision drops players in from the top and
      stands NPCs on the floor; the single-file revision puts everyone on the
      floor line, airborne. */
  function CreateEntity(rules: Rules, world: World, id: nat, kind: Kind, source: Source, d: SpawnDraws): (r: Entity)
    requires world.width != 180
    ensures r.id == id && r.kind == kind && r.source == source && !r.isShard
    // ids are spread over a band starting 100 from the left wall
    ensures 100.0 <= r.x < 100.0 + (if world.width < 180 then 180 - world.width else world.width - 180) as real
    ensures r.radius == r.baseRadius && r.mass == r.baseRadius * r.baseRadius
    ensures kind == Player ==> r.baseRadius == rules.playerBaseRadius
    ensures kind == Npc ==> r.baseRadius == rules.npcRadiusLow + d.size * rules.npcRadiusSpan
    ensures r.onGround <==> rules.revision == Modular && kind == Npc
    ensures r.controlSlot == (if rules.revision == Modular && kind == Player then Some(id) else None)
    ensures r.keyboardMap == KeymapFor(id) && r.gamepadIndex == None
    ensures r.alive && r.vx == 0.0 && r.vy == 0.0 && !r.jumpHeld
    ensures r.eatenCount == 0 && r.evolutionStage == 0
    ensures r.respawnTimer == Finite(0.0) && r.invulnTimer == 0.0 && r.gear == FreshGear
    ensures 0.0 <= r.ai.jumpCooldown < 0.8 && 0.8 <= r.ai.roamTimer < 2.0
    ensures 0.0 <= r.baseRadius ==> Consistent(r)
  {
    var baseRadius := if kind == Npc then rules.npcRadiusLow + d.size * rules.npcRadiusSpan else rules.playerBaseRadius;
    var y := if rules.revision == Modular && kind == Player then baseRadius + 8.0 else world.floorY - baseRadius;
    Entity(
      id := id,
      kind := kind,
      source := source,
      controlSlot := if rules.revision == Modular && kind == Player then Some(id) else None,
      isShard := false,
      x := SpawnX(world, id),
      y := y,
      vx := 0.0,
      vy := 0.0,
      radius := baseRadius,
      baseRadius := baseRadius,
      mass := baseRadius * baseRadius,
      alive := true,
      onGround := rules.revision == Modular && kind == Npc,
      jumpHeld := false,
      color := ColorFor(rules, id, kind),
      keyboardMap := KeymapFor(id),
      gamepadIndex := None,
      eatenCount := 0,
      evolutionStage := 0,
      respawnTimer := Finite(0.0),
      invulnTimer := 0.0,
      gear := FreshGear,
      ai := AiState(d.cooldown * 0.8, CoinDir(d.roamDir), 0.8 + d.roamTime * 1.2))
  }

  /** The modular revision's spawn: 24-unit players dropped in from the top,
      NPCs of radius in [15, 21) standing on the floor. */
  lemma ModularSpawn(world: World, id: nat, kind: Kind, source: Source, d: SpawnDraws)
    requires world.width != 180
    ensures var e := CreateEntity(ModularRules, world, id, kind, source, d);
      && (kind == Player ==> e.baseRadius == 24.0 && e.y == e.radius + 8.0 && e.controlSlot == Some(id))
      && (kind == Npc ==> 15.0 <= e.baseRadius < 21.0 && e.y == world.floorY - e.radius && e.controlSlot == None)
      && (e.onGround <==> kind == Npc)
      && Consistent(e)
  {
  }

  /** Player `i` of the modular roster, with the i-th connected pad if any. */
  function InitialPlayer(world: World, pads: seq<nat>, draws: nat -> SpawnDraws, i: nat): (p: Entity)
    requires world.width != 180
    ensures p.id == i && p.kind == Player && Consistent(p)
    ensures p.gamepadIndex == (if i < |pads| then Some(pads[i]) else None)
  {
    var p := CreateEntity(ModularRules, world, i, Player, Keyboard, draws(i));
    if i < |pads| then p.(gamepadIndex := Some(pads[i])) else p
  }

  /** `buildEntities` of the modular revision: four players with ids 0..3,
      the i-th connected pad bound to player i, then the NPCs with ids
      continuing from 4. `pads` lists the `index` of each connected pad in
      connection order. */
  function BuildEntities(world: World, pads: seq<nat>, draws: nat -> SpawnDraws): (r: seq<Entity>)
    requires world.width != 180
    ensures |r| == HumanPlayerCount + NpcCount
    ensures forall k :: 0 <= k < |r| ==> r[k].id == k
    ensures forall k :: 0 <= k < |r| ==> (r[k].kind == Player <==> k < HumanPlayerCount)
    ensures forall k :: 0 <= k < HumanPlayerCount ==>
      r[k].gamepadIndex == (if k < |pads| then Some(pads[k]) else None)
    ensures forall k :: HumanPlayerCount <= k < |r| ==> r[k].gamepadIndex == None && r[k].onGround
    ensures AllConsistent(r)
  {
    var players := seq(HumanPlayerCount, i requires 0 <= i < HumanPlayerCount =>
      InitialPlayer(world, pads, draws, i));
    var npcs := seq(NpcCount, i requires 0 <= i < NpcCount =>
      CreateEntity(ModularRules, world, HumanPlayerCount + i, Npc, Ai, draws(HumanPlayerCount + i)));
    assert forall k :: 0 <= k < NpcCount ==>
      && npcs[k].id == HumanPlayerCount + k && npcs[k].kind == Npc
      && npcs[k].gamepadIndex == None && npcs[k].onGround && Consistent(npcs[k]) by {
      forall k | 0 <= k < NpcCount
        ensures && npcs[k].id == HumanPlayerCount + k && npcs[k].kind == Npc
                && npcs[k].gamepadIndex == None && npcs[k].onGround && Consistent(npcs[k])
      {
        ModularSpawn(world, HumanPlayerCount + k, Npc, Ai, draws(HumanPlayerCount + k));
      }
    }
    var r := players + npcs;
    assert forall k :: 0 <= k < HumanPlayerCount ==> r[k] == players[k];
    assert forall k :: HumanPlayerCount <= k < |r| ==> r[k] == npcs[k - HumanPlayerCount];
    r
  }

  // ---------------------------------------------------------------------
  // Growth, elimination and respawn
  // ---------------------------------------------------------------------

  /** `grow`: add the eaten mass and re-derive the radius from it. */
  function Grow(math: MathLib, e: Entity, eatenMass: real): (r: Entity)
    ensures r.mass == e.mass + eatenMass
    ensures Lawful(math) && 0.0 <= r.mass ==> 0.0 <= r.radius && r.radius * r.radius == r.mass
    ensures r == e.(mass := r.mass, radius := r.radius)
  {
    var mass := e.mass + eatenMass;
    e.(mass := mass, radius := math.sqrt(mass))
  }

  /** The respawn delay of an entity's kind. */
  function RespawnTime(rules: Rules, kind: Kind): real
  {
    if kind == Player then rules.playerRespawnTime else rules.npcRespawnTime
  }

  /** `scheduleRespawn`: dead, counting down the kind's respawn delay. */
  function ScheduleRespawn(rules: Rules, e: Entity): (r: Entity)
    ensures !r.alive && r.respawnTimer == Finite(RespawnTime(rules, e.kind))
    ensures r == e.(alive := false, respawnTimer := r.respawnTimer)
  {
    e.(alive := false, respawnTimer := Finite(RespawnTime(rules, e.kind)))
  }

  /** `removeWithoutRespawn`: dead with an infinite timer, which never expires. */
  function RemoveWithoutRespawn(e: Entity): (r: Entity)
    ensures !r.alive && r.respawnTimer == Forever
    ensures forall dt: real :: !r.respawnTimer.Tick(dt).Expired()
    ensures r == e.(alive := false, respawnTimer := Forever)
  {
    e.(alive := false, respawnTimer := Forever)
  }

  /** `setEvolvedStats` followed by the evolution pop: the stage is re-derived
      from the eaten count and, if it rose, vy loses 100. */
  function EvolveIfNeeded(e: Entity): (r: Entity)
    ensures r.evolutionStage == EvolutionStage(e.eatenCount)
    ensures r.vy == (if r.evolutionStage > e.evolutionStage then e.vy - 100.0 else e.vy)
    ensures r == e.(evolutionStage := r.evolutionStage, vy := r.vy)
  {
    var stage := EvolutionStage(e.eatenCount);
    e.(evolutionStage := stage, vy := if stage > e.evolutionStage then e.vy - 100.0 else e.vy)
  }

  /** The launch speed an eater gets: `max(620, 760 - 2 * radius)`. */
  function EatLaunch(radius: real): (s: real)
    ensures 620.0 <= s
    ensures 760.0 - radius * 2.0 <= s
    ensures s == 620.0 || s == 760.0 - radius * 2.0
  {
    Max(620.0, 760.0 - radius * 2.0)
  }

  /** `handleEat(eater, victim, {skipRespawn})`. The victim dies (for good
      when `skipRespawn`); the eater gains the victim's mass and one meal,
      re-derives its stage, and is launched upward. The launch overwrites
      the evolution pop, so the final vy does not depend on whether the
      stage rose. Returns (eater, victim). */
  function HandleEat(rules: Rules, math: MathLib, eater: Entity, victim: Entity, skipRespawn: bool): (r: (Entity, Entity))
    ensures !r.1.alive
    ensures r.1.respawnTimer == (if skipRespawn then Forever else Finite(RespawnTime(rules, victim.kind)))
    ensures r.1 == victim.(alive := false, respawnTimer := r.1.respawnTimer)
    ensures r.0.mass == eater.mass + victim.mass
    ensures r.0.eatenCount == eater.eatenCount + 1
    ensures r.0.evolutionStage == EvolutionStage(eater.eatenCount + 1)
    ensures r.0.vy == -EatLaunch(r.0.radius)
    ensures r.0 == eater.(mass := r.0.mass, radius := r.0.radius, eatenCount := r.0.eatenCount,
                          evolutionStage := r.0.evolutionStage, vy := r.0.vy)
    ensures Unmoved(eater, r.0) && Unmoved(victim, r.1)
    ensures Lawful(math) && Consistent(eater) && Consistent(victim) ==> Consistent(r.0) && Consistent(r.1)
  {
    var v := if skipRespawn then RemoveWithoutRespawn(victim) else ScheduleRespawn(rules, victim);
    var grown := Grow(math, eater, victim.mass);
    var evolved := EvolveIfNeeded(grown.(eatenCount := grown.eatenCount + 1));
    var e := evolved.(vy := -EatLaunch(evolved.radius));
    MassStaysNonNegative(eater, victim);
    (e, v)
  }

  /** What a meal or a bounce leaves alone: who the blob is, its
      invulnerability, its base size and where it stands. */
  predicate Unmoved(e: Entity, f: Entity)
  {
    && f.id == e.id && f.kind == e.kind && f.invulnTimer == e.invulnTimer
    && f.baseRadius == e.baseRadius && f.x == e.x && f.y == e.y
  }

  lemma MassStaysNonNegative(a: Entity, b: Entity)
    ensures Consistent(a) && Consistent(b) ==> 0.0 <= a.mass + b.mass
  {
    SquareNonNegative(a.radius);
    SquareNonNegative(b.radius);
  }

  /** Whether a respawn may be computed in this world: the single-file
      revision's player placement divides by `width - 180`. */
  predicate Placeable(rules: Rules, world: World)
  {
    rules.revision == Modular || world.width != 180
  }

  /** Where a respawned player reappears horizontally. The modular revision
      spreads control slots evenly across the arena; the single-file revision
      steps by 180 per id, wrapping around. */
  function PlayerRespawnX(rules: Rules, world: World, e: Entity): real
    requires Placeable(rules, world)
  {
    match rules.revision
    case Modular =>
      var slot := match e.controlSlot case Some(s) => s case None => e.id;
      100.0 + slot as real * ((world.width as real - 200.0) / Max(1.0, HumanPlayerCount as real - 1.0))
    case Legacy =>
      90.0 + JsRem(e.id * 180, world.width - 180) as real
  }

  /** `respawnEntity`: back to a reborn life at the base size. Players reappear
      near the top, airborne; NPCs stand on the floor at a random spot. */
  function RespawnEntity(rules: Rules, world: World, e: Entity, draw: Draw): (r: Entity)
    requires Placeable(rules, world)
    ensures r.alive && r.vx == 0.0 && r.vy == 0.0 && !r.jumpHeld
    ensures r.respawnTimer == Finite(0.0) && r.invulnTimer == 0.8
    ensures r.mass == e.baseRadius * e.baseRadius && r.radius == e.baseRadius
    ensures r.eatenCount == 0 && r.evolutionStage == 0 && r.gear == FreshGear
    ensures e.kind == Player ==> r.y == r.radius + 8.0 && !r.onGround && r.x == PlayerRespawnX(rules, world, e)
    ensures e.kind == Npc ==> r.y == world.floorY - r.radius && r.onGround
    ensures e.kind == Npc && 160 <= world.width ==> 80.0 <= r.x <= world.width as real - 80.0
    ensures r == e.(alive := true, x := r.x, y := r.y, vx := 0.0, vy := 0.0, onGround := r.onGround,
                    jumpHeld := false, respawnTimer := Finite(0.0), invulnTimer := 0.8, gear := FreshGear,
                    mass := r.mass, radius := r.radius, eatenCount := 0, evolutionStage := 0)
    ensures 0.0 <= e.baseRadius ==> Consistent(r)
  {
    var reborn := e.(alive := true, vx := 0.0, vy := 0.0, onGround := false, jumpHeld := false,
                    respawnTimer := Finite(0.0), invulnTimer := 0.8, gear := FreshGear,
                    mass := e.baseRadius * e.baseRadius, radius := e.baseRadius,
                    eatenCount := 0, evolutionStage := 0);
    if e.kind == Player then
      reborn.(x := PlayerRespawnX(rules, world, e), y := reborn.radius + 8.0)
    else
      var span := world.width as real - 160.0;
      DrawScale(draw, span);
      reborn.(x := 80.0 + draw * span, y := world.floorY - reborn.radius, onGround := true)
  }

  /** A modular-revision player reappears at its control slot's share of the
      arena width: `100 + slot * (width - 200) / 3`. */
  lemma ModularPlayerRespawnSpot(world: World, e: Entity, draw: Draw)
    requires e.kind == Player
    ensures var r := RespawnEntity(ModularRules, world, e, draw);
      var slot := if e.controlSlot.Some? then e.controlSlot.value else e.id;
      && r.x == 100.0 + slot as real * ((world.width as real - 200.0) / 3.0)
      && r.y == e.baseRadius + 8.0
      && !r.onGround
  {
  }

  // ---------------------------------------------------------------------
  // Splitting
  // ---------------------------------------------------------------------

  /** The launch angle of shard i of `count`: evenly spaced over 0.85 pi. */
  function ShardAngle(i: nat, count: nat): real
  {
    -Pi * 0.85 + (i as real * Pi * 0.85) / Max(1.0, count as real - 1.0)
  }

  /** The launch angles run evenly from -0.85 pi for the first shard up to
      0 for the last, strictly rising in between. */
  lemma ShardAnglesSpread(count: nat, i: nat, j: nat)
    requires 2 <= count && i < j < count
    ensures ShardAngle(0, count) == -Pi * 0.85
    ensures ShardAngle(count - 1, count) == 0.0
    ensures ShardAngle(i, count) < ShardAngle(j, count)
  {
    var d := count as real - 1.0;
    assert Max(1.0, d) == d;
    assert ((count - 1) as real * Pi * 0.85) / d == Pi * 0.85;
    assert (i as real * Pi * 0.85) / d < (j as real * Pi * 0.85) / d by {
      assert i as real * Pi * 0.85 < j as real * Pi * 0.85;
    }
  }

  /** Where shard `s` of `victim` leaves at `angle`: a quarter of the
      victim's radius out along the angle (held below the ceiling margin),
      at 420 along the angle horizontally and 380 upwards plus 100 along
      it vertically. */
  predicate LaunchedAt(math: MathLib, victim: Entity, angle: real, shardRadius: real, s: Entity)
  {
    && s.x == victim.x + math.cos(angle) * (victim.radius * 0.25)
    && s.y == Max(shardRadius + 8.0, victim.y - victim.radius * 0.25)
    && s.vx == math.cos(angle) * 420.0
    && s.vy == -380.0 - math.sin(angle) * 100.0
  }

  /** What every shard of a split of `victim` is: an airborne, living
      player shard at the shard radius, reborn (no meals, no armour), bound
      to the victim's control slot (or its id), key map, pad and colour, and
      never placed above the ceiling margin. */
  predicate ShardOf(victim: Entity, shardRadius: real, s: Entity)
  {
    && s.kind == Player && s.isShard
    && s.radius == shardRadius && s.baseRadius == shardRadius && s.mass == shardRadius * shardRadius
    && s.radius + 8.0 <= s.y && !s.onGround && s.alive
    && s.controlSlot == Some(if victim.controlSlot.Some? then victim.controlSlot.value else victim.id)
    && s.keyboardMap == victim.keyboardMap && s.gamepadIndex == victim.gamepadIndex && s.color == victim.color
    && s.eatenCount == 0 && s.evolutionStage == 0 && !s.gear.hasArmor
  }

  /** Shard `i` of `count`: a reborn player, then bound to the victim and
      launched at its angle, up and outwards. */
  function Shard(world: World, math: MathLib, victim: Entity, firstId: nat, i: nat, count: nat,
                 shardRadius: real, draws: nat -> SpawnDraws): (s: Entity)
    requires world.width != 180
    ensures s.id == firstId + i && ShardOf(victim, shardRadius, s)
    ensures LaunchedAt(math, victim, ShardAngle(i, count), shardRadius, s)
    ensures Lawful(math) ==> -420.0 <= s.vx <= 420.0 && -480.0 <= s.vy <= -280.0
    ensures 0.0 <= shardRadius ==> Consistent(s)
  {
    var base := CreateEntity(ModularRules, world, firstId + i, Player, Keyboard, draws(firstId + i));
    var angle := ShardAngle(i, count);
    base.(
      isShard := true,
      controlSlot := Some(match victim.controlSlot case Some(c) => c case None => victim.id),
      keyboardMap := victim.keyboardMap,
      gamepadIndex := victim.gamepadIndex,
      color := victim.color,
      baseRadius := shardRadius,
      radius := shardRadius,
      mass := shardRadius * shardRadius,
      eatenCount := 0,
      evolutionStage := 0,
      x := victim.x + math.cos(angle) * (victim.radius * 0.25),
      y := Max(shardRadius + 8.0, victim.y - victim.radius * 0.25),
      vx := math.cos(angle) * 420.0,
      vy := -380.0 - math.sin(angle) * 100.0,
      onGround := false,
      gear := base.gear.(hasArmor := false, armorSide := 0,
                         facing := if victim.gear.facing == 0 then 1 else victim.gear.facing))
  }

  /** `createSplitShards(victim, world, firstId, count)`: `count` shards of
      the victim with consecutive ids from `firstId`, each launched at
      between -420 and 420 horizontally and between 280 and 480 upwards. */
  function CreateSplitShards(world: World, math: MathLib, victim: Entity, firstId: nat, count: nat,
                             shardRadius: real, draws: nat -> SpawnDraws): (r: seq<Entity>)
    requires world.width != 180
    ensures |r| == count
    ensures forall k :: 0 <= k < |r| ==> r[k].id == firstId + k && ShardOf(victim, shardRadius, r[k])
    ensures forall k :: 0 <= k < |r| ==> LaunchedAt(math, victim, ShardAngle(k, count), shardRadius, r[k])
    ensures Lawful(math) ==> forall k :: 0 <= k < |r| ==>
      -420.0 <= r[k].vx <= 420.0 && -480.0 <= r[k].vy <= -280.0
    ensures 0.0 <= shardRadius ==> AllConsistent(r)
  {
    ShardRange(world, math, victim, firstId, 0, count, shardRadius, draws)
  }

  /** Shards `from` up to `count` of one split, in launch order. */
  function ShardRange(world: World, math: MathLib, victim: Entity, firstId: nat, from: nat, count: nat,
                      shardRadius: real, draws: nat -> SpawnDraws): (r: seq<Entity>)
    requires world.width != 180
    requires from <= count
    ensures |r| == count - from
    ensures forall k :: 0 <= k < |r| ==> r[k].id == firstId + from + k && ShardOf(victim, shardRadius, r[k])
    ensures forall k :: 0 <= k < |r| ==> LaunchedAt(math, victim, ShardAngle(from + k, count), shardRadius, r[k])
    ensures Lawful(math) ==> forall k :: 0 <= k < |r| ==>
      -420.0 <= r[k].vx <= 420.0 && -480.0 <= r[k].vy <= -280.0
    ensures 0.0 <= shardRadius ==> AllConsistent(r)
    decreases count - from
  {
    if from == count then []
    else
      var rest := ShardRange(world, math, victim, firstId, from + 1, count, shardRadius, draws);
      var r := [Shard(world, math, victim, firstId, from, count, shardRadius, draws)] + rest;
      assert forall k :: 0 < k < |r| ==> r[k] == rest[k - 1];
      r
  }
}

=== FILE: gameplay.dfy ===
/** One simulation tick (js/gameplay.js, and `updateMovement`,
    `resolveBlobCollision` and `update` of game.js): movement and landing
    for one entity, the pairwise blob collision with its stomp-to-eat rule,
    and the two-phase update of the whole roster. */
module Gameplay {
  import opened Base
  import opened Config
  import opened Entities
  import opened Input

  // ---------------------------------------------------------------------
  // Movement
  // ---------------------------------------------------------------------

  function SpeedBase(kind: Kind): real
  {
    if kind == Npc then 470.0 else 520.0
  }

  function JumpPower(kind: Kind): real
  {
    if kind == Npc then 930.0 else 980.0
  }

  /** The horizontal speed cap: larger blobs are slower, down to 230. */
  function MaxSpeed(e: Entity): (m: real)
    ensures 230.0 <= m
    ensures SpeedBase(e.kind) - e.radius * 2.2 <= m
    ensures m == 230.0 || m == SpeedBase(e.kind) - e.radius * 2.2
  {
    Max(230.0, SpeedBase(e.kind) - e.radius * 2.2)
  }

  /** `Math.max(-m, Math.min(m, v))`. */
  function ClampSpeed(v: real, m: real): (c: real)
    requires 0.0 <= m
    ensures -m <= c <= m
    ensures -m <= v <= m ==> c == v
    ensures Abs(c) <= Abs(v)
    ensures v < -m ==> c == -m
    ensures m < v ==> c == m
  {
    Max(-m, Min(m, v))
  }

  /** A jump starts only on the press edge, from the ground. */
  predicate JumpFires(e: Entity, input: Intent)
  {
    input.jump && e.onGround && !e.jumpHeld
  }

  /** The upward take-off speed: larger blobs jump lower, down to 430. */
  function JumpSpeed(e: Entity): (s: real)
    ensures 430.0 <= s
    ensures JumpPower(e.kind) - e.radius * 3.2 <= s
    ensures s == 430.0 || s == JumpPower(e.kind) - e.radius * 3.2
  {
    Max(430.0, JumpPower(e.kind) - e.radius * 3.2)
  }

  /** The vertical velocity before gravity: the take-off speed if a jump
      fires, the old vy otherwise. */
  function LaunchVy(e: Entity, input: Intent): real
  {
    if JumpFires(e, input) then -JumpSpeed(e) else e.vy
  }

  /** The two side walls: a blob poking out is put back against the wall and
      its horizontal velocity reversed and damped to 35%. Returns (x, vx). */
  function WallClamp(x: real, vx: real, radius: real, width: real): (r: (real, real))
    ensures r.0 <= width - radius
    ensures radius <= width - radius ==> radius <= r.0
    ensures radius <= x <= width - radius ==> r == (x, vx)
    ensures x < radius <= width - radius ==> r == (radius, vx * -0.35)
    ensures radius <= x && width - radius < x ==> r == (width - radius, vx * -0.35)
    // an arena narrower than the blob: both walls fire, the second one wins
    ensures x < radius && width - radius < radius ==> r == (width - radius, vx * 0.1225)
    ensures Abs(r.1) <= Abs(vx)
  {
    var (x, vx) := if x < radius then (radius, vx * -0.35) else (x, vx);
    if x > width - radius then (width - radius, vx * -0.35) else (x, vx)
  }

  /** What the landing test needs to know about a moving blob after the
      floor check. */
  datatype Probe = Probe(x: real, y: real, vy: real, radius: real, dt: real)

  function Top(p: Platform): real
  {
    p.y - p.h * 0.5
  }

  /** One-way platform landing: the blob overlaps the platform horizontally,
      is falling (or level), and its bottom crossed the top this tick. */
  predicate Lands(p: Platform, q: Probe)
  {
    && q.x + q.radius > p.x - p.w * 0.5
    && q.x - q.radius < p.x + p.w * 0.5
    && q.vy >= 0.0
    && q.y + q.radius >= Top(p)
    && q.y + q.radius - q.vy * q.dt <= Top(p)
  }

  /** The resting y over the highest platform the blob lands on this tick;
      None (the source's `Infinity`) if it lands on none. */
  function LandingY(ps: seq<Platform>, q: Probe): (l: Option<real>)
    ensures l.None? <==> forall i :: 0 <= i < |ps| ==> !Lands(ps[i], q)
    ensures l.Some? ==> exists i :: 0 <= i < |ps| && Lands(ps[i], q) && l.value == Top(ps[i]) - q.radius
    ensures l.Some? ==> forall i :: 0 <= i < |ps| && Lands(ps[i], q) ==> l.value <= Top(ps[i]) - q.radius
    ensures l.Some? ==> l.value <= q.y
  {
    if |ps| == 0 then None
    else
      var last := |ps| - 1;
      var front := ps[..last];
      var best := LandingY(front, q);
      assert forall i :: 0 <= i < last ==> front[i] == ps[i];
      if !Lands(ps[last], q) then best
      else if best.None? then Some(Top(ps[last]) - q.radius)
      else
        var m := Min(best.value, Top(ps[last]) - q.radius);
        assert exists i :: 0 <= i < |ps| && Lands(ps[i], q) && m == Top(ps[i]) - q.radius by {
          if m == best.value {
            var i :| 0 <= i < last && Lands(front[i], q) && best.value == Top(front[i]) - q.radius;
            assert ps[i] == front[i];
          } else {
            assert Lands(ps[last], q) && m == Top(ps[last]) - q.radius;
          }
        }
        Some(m)
  }

  /** The free-flight move would take the blob's bottom below the floor. */
  predicate FloorHit(e: Entity, input: Intent, dt: real, world: World)
  {
    e.y + (LaunchVy(e, input) + world.gravity * dt) * dt > world.floorY - e.radius
  }

  /** The horizontal velocity before the cap: the move intent accelerates
      by 1800 per second, then the velocity is damped to 85%. */
  function Accelerated(e: Entity, input: Intent, dt: real): real
  {
    (e.vx + input.move as real * 1800.0 * dt) * 0.85
  }

  /** Where velocity `v` takes position `x` over the tick. */
  function Advance(x: real, v: real, dt: real): real
  {
    x + v * dt
  }

  /** Move by the capped velocity `v` and bounce off the walls. Returns
      (x, vx). */
  function Glide(e: Entity, v: real, dt: real, width: real): (r: (real, real))
    ensures Abs(r.1) <= Abs(v)
    ensures r.0 <= width - e.radius
    ensures 2.0 * e.radius <= width ==> e.radius <= r.0
    ensures e.radius <= Advance(e.x, v, dt) <= width - e.radius ==> r == (Advance(e.x, v, dt), v)
  {
    WallClamp(Advance(e.x, v, dt), v, e.radius, width)
  }

  /** The horizontal half of `updateMovement`: accelerate by the move
      intent, damp, cap at the speed limit, move, and bounce off the walls.
      Returns (x, vx). */
  function Steer(e: Entity, input: Intent, dt: real, width: real): (r: (real, real))
    ensures Abs(r.1) <= MaxSpeed(e)
    ensures r.0 <= width - e.radius
    ensures 2.0 * e.radius <= width ==> e.radius <= r.0
    // with no intent the horizontal speed only decays, to 85% at most
    ensures input.move == 0 ==> Abs(r.1) <= 0.85 * Abs(e.vx)
  {
    assert input.move == 0 ==> Accelerated(e, input, dt) == e.vx * 0.85 by {
      if input.move == 0 { assert input.move as real * 1800.0 * dt == 0.0; }
    }
    Glide(e, ClampSpeed(Accelerated(e, input, dt), MaxSpeed(e)), dt, width)
  }

  /** Away from the walls, steering is plain motion: the new velocity `v`
      is the accelerated, damped velocity under the cap, and the blob moves
      by `v` over the tick. */
  lemma SteerInside(e: Entity, input: Intent, dt: real, width: real, v: real)
    requires v == ClampSpeed(Accelerated(e, input, dt), MaxSpeed(e))
    ensures e.radius <= Advance(e.x, v, dt) <= width - e.radius ==> Steer(e, input, dt, width) == (Advance(e.x, v, dt), v)
  {
    assert Steer(e, input, dt, width) == Glide(e, v, dt, width);
  }

  /** Below the cap the clamp is idle: the new velocity is exactly the
      accelerated and damped one. */
  lemma SteerUncapped(e: Entity, input: Intent, dt: real, width: real, v: real)
    requires v == Accelerated(e, input, dt)
    ensures -MaxSpeed(e) <= v <= MaxSpeed(e) && e.radius <= Advance(e.x, v, dt) <= width - e.radius ==>
      Steer(e, input, dt, width) == (Advance(e.x, v, dt), v)
  {
    if -MaxSpeed(e) <= v <= MaxSpeed(e) {
      assert ClampSpeed(v, MaxSpeed(e)) == v;
      SteerInside(e, input, dt, width, v);
    }
  }

  /** The first part of `updateMovement`: steer, jump on the press edge,
      fall, move, bounce off the walls and stop on the floor. */
  function Fly(e: Entity, input: Intent, dt: real, world: World): (r: Entity)
    ensures r == e.(x := r.x, y := r.y, vx := r.vx, vy := r.vy, onGround := r.onGround, jumpHeld := input.jump)
    ensures (r.x, r.vx) == Steer(e, input, dt, world.width as real)
    ensures input.move == 0 ==> Abs(r.vx) <= 0.85 * Abs(e.vx)
    ensures Abs(r.vx) <= MaxSpeed(e)
    ensures r.x <= world.width as real - e.radius
    ensures 2.0 * e.radius <= world.width as real ==> e.radius <= r.x
    ensures FloorHit(e, input, dt, world) ==> r.onGround && r.vy == 0.0 && r.y == world.floorY - e.radius
    ensures !FloorHit(e, input, dt, world) ==>
      && r.vy == LaunchVy(e, input) + world.gravity * dt
      && r.y == e.y + r.vy * dt
      && (r.onGround <==> e.onGround && !JumpFires(e, input))
    ensures r.y <= world.floorY - e.radius
  {
    var (x, vx) := Steer(e, input, dt, world.width as real);
    var vy := LaunchVy(e, input) + world.gravity * dt;
    var moved := e.(x := x, vx := vx, jumpHeld := input.jump);
    if FloorHit(e, input, dt, world) then moved.(y := world.floorY - e.radius, vy := 0.0, onGround := true)
    else
      assert e.y + vy * dt <= world.floorY - e.radius;
      moved.(y := e.y + vy * dt, vy := vy, onGround := e.onGround && !JumpFires(e, input))
  }

  /** The second part of `updateMovement`: land on the highest platform
      crossed this tick, if any. */
  function Land(ps: seq<Platform>, e: Entity, dt: real): (r: Entity)
    ensures LandingY(ps, Probe(e.x, e.y, e.vy, e.radius, dt)).None? ==> r == e
    ensures LandingY(ps, Probe(e.x, e.y, e.vy, e.radius, dt)).Some? ==>
      && r == e.(y := r.y, vy := 0.0, onGround := true)
      && r.y <= e.y
      && exists i :: 0 <= i < |ps| && Lands(ps[i], Probe(e.x, e.y, e.vy, e.radius, dt)) && r.y == Top(ps[i]) - e.radius
    // the highest of the platforms crossed: no crossed top lies above the landing
    ensures forall i :: 0 <= i < |ps| && Lands(ps[i], Probe(e.x, e.y, e.vy, e.radius, dt)) ==>
      r.onGround && r.vy == 0.0 && r.y <= Top(ps[i]) - e.radius
    // a blob at vertical rest can only land where it already stands
    ensures e.vy == 0.0 ==> r.y == e.y
  {
    match LandingY(ps, Probe(e.x, e.y, e.vy, e.radius, dt))
    case None => e
    case Some(ly) => e.(y := ly, vy := 0.0, onGround := true)
  }

  /** `updateMovement`: fly, then land. Only the kinematic fields and
      `jumpHeld` change. */
  function UpdateMovement(e: Entity, input: Intent, dt: real, arena: Arena): (r: Entity)
    ensures r == e.(x := r.x, y := r.y, vx := r.vx, vy := r.vy, onGround := r.onGround, jumpHeld := input.jump)
    ensures (r.x, r.vx) == Steer(e, input, dt, arena.world.width as real)
    ensures Abs(r.vx) <= MaxSpeed(e)
    ensures r.x <= arena.world.width as real - e.radius
    ensures 2.0 * e.radius <= arena.world.width as real ==> e.radius <= r.x
    ensures r.y <= arena.world.floorY - e.radius
    // Either the blob came to rest on the floor or a platform, or it is in
    // free flight: gravity applied, moved by its velocity, and grounded only
    // if it was grounded and did not jump.
    ensures || (r.onGround && r.vy == 0.0)
            || (&& r.vy == LaunchVy(e, input) + arena.world.gravity * dt
                && r.y == e.y + r.vy * dt
                && (r.onGround <==> e.onGround && !JumpFires(e, input)))
    // A move that would sink below the floor ends grounded and at rest on
    // the floor.
    ensures FloorHit(e, input, dt, arena.world) ==>
      r.onGround && r.vy == 0.0 && r.y == arena.world.floorY - e.radius
    // The platform test sees the blob after its flight: it lands exactly when
    // some platform is crossed, on the top of one crossed platform, and on
    // none lower than another crossed one.
    ensures var f := Fly(e, input, dt, arena.world);
            var q := Probe(f.x, f.y, f.vy, e.radius, dt);
            && ((forall i :: 0 <= i < |arena.platforms| ==> !Lands(arena.platforms[i], q)) ==> r == f)
            && ((exists i :: 0 <= i < |arena.platforms| && Lands(arena.platforms[i], q)) ==>
                  exists i :: 0 <= i < |arena.platforms| && Lands(arena.platforms[i], q)
                              && r.y == Top(arena.platforms[i]) - e.radius)
            && (forall i :: 0 <= i < |arena.platforms| && Lands(arena.platforms[i], q) ==>
                  r.onGround && r.vy == 0.0 && r.y <= Top(arena.platforms[i]) - e.radius)
  {
    Land(arena.platforms, Fly(e, input, dt, arena.world), dt)
  }

  // ---------------------------------------------------------------------
  // Collision
  // ---------------------------------------------------------------------

  /** Centre distance, through the supplied `Math.hypot`. */
  function Distance(math: MathLib, a: Entity, b: Entity): real
  {
    Hypot(math, b.x - a.x, b.y - a.y)
  }

  /** Both blobs take part in collisions: alive and not invulnerable. */
  predicate Engaged(a: Entity, b: Entity)
  {
    a.alive && b.alive && a.invulnTimer <= 0.0 && b.invulnTimer <= 0.0
  }

  /** The collision does something: both engaged, overlapping, and not at
      the same centre (where the push direction is undefined). */
  predicate Touching(math: MathLib, a: Entity, b: Entity)
  {
    Engaged(a, b) && Distance(math, a, b) < a.radius + b.radius && Distance(math, a, b) != 0.0
  }

  /** The stomp test, made after separation: `s` falls faster than 220 and
      its centre is above `o`'s by more than a fifth of `o`'s radius. */
  predicate Stomps(s: Entity, o: Entity)
  {
    s.vy > 220.0 && s.y < o.y - o.radius * 0.2
  }

  /** Push two touching blobs apart along the line of centres, each by half
      the overlap. */
  function Separate(math: MathLib, a: Entity, b: Entity): (r: (Entity, Entity))
    requires Touching(math, a, b)
    ensures r.0 == a.(x := r.0.x, y := r.0.y) && r.1 == b.(x := r.1.x, y := r.1.y)
    ensures r.0.x + r.1.x == a.x + b.x && r.0.y + r.1.y == a.y + b.y
  {
    var d := Distance(math, a, b);
    var half := (a.radius + b.radius - d) * 0.5;
    var nx := (b.x - a.x) / d;
    var ny := (b.y - a.y) / d;
    (a.(x := a.x - nx * half, y := a.y - ny * half), b.(x := b.x + nx * half, y := b.y + ny * half))
  }

  /** The bounce: the blobs exchange velocities, each damped to 92%. */
  function Bounce(a: Entity, b: Entity): (r: (Entity, Entity))
    ensures r.0 == a.(vx := b.vx * 0.92, vy := b.vy * 0.92)
    ensures r.1 == b.(vx := a.vx * 0.92, vy := a.vy * 0.92)
    ensures r.0.vx + r.1.vx == (a.vx + b.vx) * 0.92 && r.0.vy + r.1.vy == (a.vy + b.vy) * 0.92
    ensures Unmoved(a, r.0) && Unmoved(b, r.1)
  {
    (a.(vx := b.vx * 0.92, vy := b.vy * 0.92), b.(vx := a.vx * 0.92, vy := a.vy * 0.92))
  }

  /** What follows the separation: the blob that stomps the other, and is
      not stomped back, eats it; otherwise the two bounce. */
  function Settle(rules: Rules, math: MathLib, a: Entity, b: Entity): (r: (Entity, Entity))
    requires a.alive && b.alive
    ensures Unmoved(a, r.0) && Unmoved(b, r.1)
    ensures r.0.alive || r.1.alive
    ensures Stomps(a, b) && !Stomps(b, a) ==> r == HandleEat(rules, math, a, b, false)
    ensures Stomps(b, a) && !Stomps(a, b) ==> (r.1, r.0) == HandleEat(rules, math, b, a, false)
    ensures Stomps(a, b) == Stomps(b, a) ==> r == Bounce(a, b)
  {
    if Stomps(a, b) && !Stomps(b, a) then HandleEat(rules, math, a, b, false)
    else if Stomps(b, a) && !Stomps(a, b) then
      var p := HandleEat(rules, math, b, a, false);
      (p.1, p.0)
    else Bounce(a, b)
  }

  /** Whatever the outcome, both records stay consistent. */
  lemma SettleKeepsConsistent(rules: Rules, math: MathLib, a: Entity, b: Entity)
    requires a.alive && b.alive
    ensures Lawful(math) && Consistent(a) && Consistent(b) ==>
      Consistent(Settle(rules, math, a, b).0) && Consistent(Settle(rules, math, a, b).1)
  {
    if !(Lawful(math) && Consistent(a) && Consistent(b)) {
    } else if Stomps(a, b) && !Stomps(b, a) {
      var p := HandleEat(rules, math, a, b, false);
      assert Consistent(p.0) && Consistent(p.1);
    } else if Stomps(b, a) && !Stomps(a, b) {
      var p := HandleEat(rules, math, b, a, false);
      assert Consistent(p.0) && Consistent(p.1);
    } else {
      assert Consistent(Bounce(a, b).0) && Consistent(Bounce(a, b).1);
    }
  }

  /** `resolveBlobCollision`: two touching blobs are pushed apart and then
      settled, by a meal or a bounce. Returns the new (a, b). */
  function ResolveBlobCollision(rules: Rules, math: MathLib, a: Entity, b: Entity): (r: (Entity, Entity))
    ensures !Touching(math, a, b) ==> r == (a, b)
    ensures Touching(math, a, b) ==> r == Settle(rules, math, Separate(math, a, b).0, Separate(math, a, b).1)
    ensures r.0.id == a.id && r.0.kind == a.kind && r.1.id == b.id && r.1.kind == b.kind
    ensures r.0.invulnTimer == a.invulnTimer && r.1.invulnTimer == b.invulnTimer
    ensures r.0.baseRadius == a.baseRadius && r.1.baseRadius == b.baseRadius
    ensures r.0.x + r.1.x == a.x + b.x && r.0.y + r.1.y == a.y + b.y
    ensures r.0.alive || r.1.alive || (!a.alive && !b.alive)
    ensures (r.0.alive ==> a.alive) && (r.1.alive ==> b.alive)
    ensures Lawful(math) && Consistent(a) && Consistent(b) ==> Consistent(r.0) && Consistent(r.1)
  {
    if !Touching(math, a, b) then (a, b)
    else
      CollisionKeepsConsistent(rules, math, a, b);
      var (sa, sb) := Separate(math, a, b);
      Settle(rules, math, sa, sb)
  }

  /** Separation moves centres only, so touching consistent blobs stay
      consistent through the whole collision. */
  lemma CollisionKeepsConsistent(rules: Rules, math: MathLib, a: Entity, b: Entity)
    requires Touching(math, a, b)
    ensures Lawful(math) && Consistent(a) && Consistent(b) ==>
      var (sa, sb) := Separate(math, a, b);
      Consistent(Settle(rules, math, sa, sb).0) && Consistent(Settle(rules, math, sa, sb).1)
  {
    var (sa, sb) := Separate(math, a, b);
    if Lawful(math) && Consistent(a) && Consistent(b) {
      assert Consistent(sa) && Consistent(sb);
      SettleKeepsConsistent(rules, math, sa, sb);
    }
  }

  /** The stomp rule: when, after separation, a stomps b and b does not
      stomp a, a eats b. b waits out its kind's respawn delay; a gains b's
      mass and one meal, re-derives its stage and is launched upward. */
  lemma StompEats(rules: Rules, math: MathLib, a: Entity, b: Entity)
    requires Touching(math, a, b)
    requires Stomps(Separate(math, a, b).0, Separate(math, a, b).1)
    requires !Stomps(Separate(math, a, b).1, Separate(math, a, b).0)
    ensures var r := ResolveBlobCollision(rules, math, a, b);
      && r.0.alive && !r.1.alive
      && r.1.respawnTimer == Finite(RespawnTime(rules, b.kind))
      && r.0.mass == a.mass + b.mass
      && r.0.eatenCount == a.eatenCount + 1
      && r.0.evolutionStage == EvolutionStage(a.eatenCount + 1)
      && r.0.vy == -EatLaunch(r.0.radius)
      && r.0.vx == a.vx && r.1.vx == b.vx && r.1.vy == b.vy
  {
  }

  /** Without a one-sided stomp the two blobs bounce: both stay alive and
      each leaves with the other's velocity, damped to 92%. */
  lemma NoStompBounces(rules: Rules, math: MathLib, a: Entity, b: Entity)
    requires Touching(math, a, b)
    requires Stomps(Separate(math, a, b).0, Separate(math, a, b).1) == Stomps(Separate(math, a, b).1, Separate(math, a, b).0)
    ensures var r := ResolveBlobCollision(rules, math, a, b);
      && r.0.alive && r.1.alive
      && r.0.vx == b.vx * 0.92 && r.0.vy == b.vy * 0.92
      && r.1.vx == a.vx * 0.92 && r.1.vy == a.vy * 0.92
      && r.0.mass == a.mass && r.1.mass == b.mass
  {
  }

  /** A collision kills a blob exactly when exactly one of the two stomps. */
  lemma DeathIffOneSidedStomp(rules: Rules, math: MathLib, a: Entity, b: Entity)
    requires Touching(math, a, b)
    ensures var r := ResolveBlobCollision(rules, math, a, b);
      var (sa, sb) := Separate(math, a, b);
      (r.0.alive && r.1.alive) <==> (Stomps(sa, sb) == Stomps(sb, sa))
  {
    var (sa, sb) := Separate(math, a, b);
    if Stomps(sa, sb) && !Stomps(sb, sa) {
      StompEats(rules, math, a, b);
    } else if Stomps(sb, sa) && !Stomps(sa, sb) {
      assert !HandleEat(rules, math, sb, sa, false).1.alive;
    } else {
      NoStompBounces(rules, math, a, b);
    }
  }

  // ---------------------------------------------------------------------
  // The collision schedule
  // ---------------------------------------------------------------------

  /** Strict lexicographic order on index pairs. */
  predicate LexBefore(p: (nat, nat), q: (nat, nat))
  {
    p.0 < q.0 || (p.0 == q.0 && p.1 < q.1)
  }

  /** The pairs (i, j) with i fixed and j running over from..n-1. */
  function Row(i: nat, from: nat, n: nat): (r: seq<(nat, nat)>)
    ensures |r| == if from <= n then n - from else 0
    ensures forall k :: 0 <= k < |r| ==> r[k] == (i, from + k)
  {
    if from < n then seq(n - from, k requires 0 <= k < n - from => (i, from + k)) else []
  }

  /** The nested `for i`, `for j > i` loops of the source, from row i on. */
  function PairsFrom(i: nat, n: nat): (r: seq<(nat, nat)>)
    ensures forall k :: 0 <= k < |r| ==> i <= r[k].0 < r[k].1 < n
    ensures forall p, q :: i <= p < q < n ==> (p, q) in r
    ensures forall k, l :: 0 <= k < l < |r| ==> LexBefore(r[k], r[l])
    decreases n - i
  {
    if n <= i then []
    else
      var row := Row(i, i + 1, n);
      var rest := PairsFrom(i + 1, n);
      RowThenRest(i, n, row, rest);
      row + rest
  }

  /** Row i followed by the later rows: every pair from row i on, in
      strictly increasing order. */
  lemma RowThenRest(i: nat, n: nat, row: seq<(nat, nat)>, rest: seq<(nat, nat)>)
    requires i < n && |row| == n - i - 1
    requires forall k :: 0 <= k < |row| ==> row[k] == (i, i + 1 + k)
    requires forall k :: 0 <= k < |rest| ==> i + 1 <= rest[k].0
    requires forall p, q :: i + 1 <= p < q < n ==> (p, q) in rest
    requires forall k, l :: 0 <= k < l < |rest| ==> LexBefore(rest[k], rest[l])
    ensures forall p, q :: i <= p < q < n ==> (p, q) in row + rest
    ensures forall k, l :: 0 <= k < l < |row + rest| ==> LexBefore((row + rest)[k], (row + rest)[l])
  {
    var r := row + rest;
    forall p, q | i <= p < q < n
      ensures (p, q) in r
    {
      if p == i {
        assert r[q - i - 1] == (i, q);
      } else {
        assert (p, q) in rest;
      }
    }
    forall k, l | 0 <= k < l < |r|
      ensures LexBefore(r[k], r[l])
    {
      if l < |row| {
        assert r[k] == (i, i + 1 + k) && r[l] == (i, i + 1 + l);
      } else if k < |row| {
        assert r[k].0 == i && r[l] == rest[l - |row|];
      } else {
        assert r[k] == rest[k - |row|] && r[l] == rest[l - |row|];
      }
    }
  }

  /** Every unordered pair of roster indices, once each, in the order the
      source visits them. */
  function Pairs(n: nat): (r: seq<(nat, nat)>)
    ensures forall k :: 0 <= k < |r| ==> r[k].0 < r[k].1 < n
    ensures forall p, q :: 0 <= p < q < n ==> (p, q) in r
    ensures forall k, l :: 0 <= k < l < |r| ==> LexBefore(r[k], r[l])
  {
    PairsFrom(0, n)
  }

  /** Strictly increasing means no pair is visited twice. */
  lemma PairsVisitedOnce(n: nat)
    ensures forall k, l :: 0 <= k < l < |Pairs(n)| ==> Pairs(n)[k] != Pairs(n)[l]
  {
  }

  /** Resolve the collision of roster entries i and j in place. */
  function CollideAt(rules: Rules, math: MathLib, ps: seq<Entity>, i: nat, j: nat): (r: seq<Entity>)
    requires i < j < |ps|
    ensures |r| == |ps|
    ensures forall k :: 0 <= k < |ps| && k != i && k != j ==> r[k] == ps[k]
    ensures (r[i], r[j]) == ResolveBlobCollision(rules, math, ps[i], ps[j])
  {
    var (a, b) := ResolveBlobCollision(rules, math, ps[i], ps[j]);
    ps[i := a][j := b]
  }

  /** Dead or invulnerable: every collision with this entity is a no-op. */
  predicate Untouchable(e: Entity)
  {
    !e.alive || e.invulnTimer > 0.0
  }

  predicate ValidSchedule(sched: seq<(nat, nat)>, n: nat)
  {
    forall k :: 0 <= k < |sched| ==> sched[k].0 < sched[k].1 < n
  }

  /** The collision phase: resolve the scheduled pairs in order, each on the
      roster as the earlier ones left it. */
  function Phase2(rules: Rules, math: MathLib, ps: seq<Entity>, sched: seq<(nat, nat)>): (r: seq<Entity>)
    requires ValidSchedule(sched, |ps|)
    ensures |r| == |ps|
    ensures forall k :: 0 <= k < |ps| ==> r[k].id == ps[k].id && r[k].kind == ps[k].kind
    ensures forall k :: 0 <= k < |ps| ==> r[k].baseRadius == ps[k].baseRadius
    ensures forall k :: 0 <= k < |ps| && Untouchable(ps[k]) ==> r[k] == ps[k]
    ensures Lawful(math) && AllConsistent(ps) ==> AllConsistent(r)
    decreases |sched|
  {
    if |sched| == 0 then ps
    else
      var next := CollideAt(rules, math, ps, sched[0].0, sched[0].1);
      assert forall k :: 0 <= k < |ps| && Untouchable(ps[k]) ==> next[k] == ps[k];
      assert Lawful(math) && AllConsistent(ps) ==> AllConsistent(next);
      Phase2(rules, math, next, sched[1..])
  }

  // ---------------------------------------------------------------------
  // The update
  // ---------------------------------------------------------------------

  /** The draws one roster slot may consume in a tick: the respawn spot and
      the pursuit policy's coins. */
  datatype TickDraw = TickDraw(respawn: Draw, npc: NpcDraws)

  /** A dead entity's tick: count its timer down and respawn it once the
      timer has run out. */
  function DeadStep(rules: Rules, world: World, e: Entity, dt: real, draw: Draw): (r: Entity)
    requires Placeable(rules, world)
    requires !e.alive
    ensures e.respawnTimer.Tick(dt).Expired() ==> r == RespawnEntity(rules, world, e, draw)
    ensures !e.respawnTimer.Tick(dt).Expired() ==> r == e.(respawnTimer := e.respawnTimer.Tick(dt))
    ensures r.id == e.id && r.kind == e.kind && r.baseRadius == e.baseRadius
    ensures Consistent(e) ==> Consistent(r)
    ensures r.alive ==> r.invulnTimer == 0.8
  {
    var timer := e.respawnTimer.Tick(dt);
    // the respawn resets the timer, so the counted-down value is dropped
    if timer.Expired() then RespawnEntity(rules, world, e, draw)
    else e.(respawnTimer := timer)
  }

  /** A running invulnerability counts down by the tick; an expired one
      is left alone. */
  function Aged(e: Entity, dt: real): (a: Entity)
    ensures a == e.(invulnTimer := a.invulnTimer)
    ensures e.invulnTimer > 0.0 ==> a.invulnTimer == e.invulnTimer - dt
    ensures e.invulnTimer <= 0.0 ==> a == e
  {
    if e.invulnTimer > 0.0 then e.(invulnTimer := e.invulnTimer - dt) else e
  }

  /** Where movement leaves a living blob: within its speed cap, not past
      the right wall (nor the left one when the arena is wide enough for
      it), and not below the floor. */
  predicate Contained(world: World, e: Entity)
  {
    && Abs(e.vx) <= MaxSpeed(e)
    && e.x <= world.width as real - e.radius
    && (2.0 * e.radius <= world.width as real ==> e.radius <= e.x)
    && e.y <= world.floorY - e.radius
  }

  /** A living entity's tick: age the invulnerability, read its intent
      (NPCs look at the roster as the tick has left it so far), then move. */
  function LiveStep(rules: Rules, arena: Arena, e: Entity, roster: seq<Entity>, dt: real,
                    snap: Snapshot, d: NpcDraws): (r: Entity)
    ensures var aged := Aged(e, dt);
            var io := InputForEntity(rules, aged, roster, dt, snap, d);
            r == UpdateMovement(aged.(ai := io.1), io.0, dt, arena)
    ensures r.id == e.id && r.kind == e.kind && r.baseRadius == e.baseRadius && r.alive == e.alive
    ensures r.radius == e.radius && r.mass == e.mass && r.eatenCount == e.eatenCount
    ensures r.invulnTimer == (if e.invulnTimer > 0.0 then e.invulnTimer - dt else e.invulnTimer)
    ensures Contained(arena.world, r)
    ensures Consistent(e) ==> Consistent(r)
  {
    var aged := Aged(e, dt);
    var (input, ai) := InputForEntity(rules, aged, roster, dt, snap, d);
    var r := UpdateMovement(aged.(ai := ai), input, dt, arena);
    SameShape(e, r);
    assert MaxSpeed(r) == MaxSpeed(aged.(ai := ai));
    r
  }

  /** Slot i's first-phase step on the roster as the loop has left it. */
  function Step(rules: Rules, arena: Arena, dt: real, snap: Snapshot, d: TickDraw,
                ps: seq<Entity>, i: nat): (r: Entity)
    requires Placeable(rules, arena.world)
    requires i < |ps|
    ensures !ps[i].alive ==> r == DeadStep(rules, arena.world, ps[i], dt, d.respawn)
    ensures ps[i].alive ==> r.alive && Contained(arena.world, r)
    // a living entry reads its intent from the roster as the tick has left
    // it, with its own invulnerability already aged
    ensures ps[i].alive ==> r == LiveStep(rules, arena, ps[i], ps[i := Aged(ps[i], dt)], dt, snap, d.npc)
    ensures r.id == ps[i].id && r.kind == ps[i].kind && r.baseRadius == ps[i].baseRadius
    ensures Consistent(ps[i]) ==> Consistent(r)
  {
    var e := ps[i];
    if !e.alive then DeadStep(rules, arena.world, e, dt, d.respawn)
    else
      LiveStep(rules, arena, e, ps[i := Aged(e, dt)], dt, snap, d.npc)
  }

  /** The movement phase from slot i on: each slot in turn, in roster order. */
  function Phase1(rules: Rules, arena: Arena, dt: real, snap: Snapshot, rng: nat -> TickDraw,
                  ps: seq<Entity>, i: nat): (r: seq<Entity>)
    requires Placeable(rules, arena.world)
    requires i <= |ps|
    ensures |r| == |ps|
    ensures forall k :: 0 <= k < i ==> r[k] == ps[k]
    ensures forall k :: 0 <= k < |ps| ==> r[k].id == ps[k].id && r[k].kind == ps[k].kind
    ensures forall k :: 0 <= k < |ps| ==> r[k].baseRadius == ps[k].baseRadius
    ensures forall k :: i <= k < |ps| && !ps[k].alive ==> r[k] == DeadStep(rules, arena.world, ps[k], dt, rng(k).respawn)
    ensures forall k :: i <= k < |ps| && ps[k].alive ==> r[k].alive && Contained(arena.world, r[k])
    ensures AllConsistent(ps) ==> AllConsistent(r)
    decreases |ps| - i
  {
    if i == |ps| then ps
    else
      var next := ps[i := Step(rules, arena, dt, snap, rng(i), ps, i)];
      assert forall k :: 0 <= k < |ps| && k != i ==> next[k] == ps[k];
      assert AllConsistent(ps) ==> AllConsistent(next);
      Phase1(rules, arena, dt, snap, rng, next, i + 1)
  }

  /** The movement phase is a fold in roster order: entry k is slot k's
      step on the roster whose earlier slots have already moved and whose
      later slots have not. */
  lemma {:induction false} Phase1InOrder(rules: Rules, arena: Arena, dt: real, snap: Snapshot,
                                         rng: nat -> TickDraw, ps: seq<Entity>, i: nat, k: nat)
    requires Placeable(rules, arena.world)
    requires i <= k < |ps|
    ensures Phase1(rules, arena, dt, snap, rng, ps, i)[k]
            == Step(rules, arena, dt, snap, rng(k), Phase1(rules, arena, dt, snap, rng, ps, i)[..k] + ps[k..], k)
    decreases |ps| - i
  {
    if k == i {
      Phase1Head(rules, arena, dt, snap, rng, ps, i);
    } else {
      var next := ps[i := Step(rules, arena, dt, snap, rng(i), ps, i)];
      var r := Phase1(rules, arena, dt, snap, rng, next, i + 1);
      assert Phase1(rules, arena, dt, snap, rng, ps, i) == r;
      assert r[k] == Step(rules, arena, dt, snap, rng(k), r[..k] + next[k..], k) by {
        Phase1InOrder(rules, arena, dt, snap, rng, next, i + 1, k);
      }
      assert next[k..] == ps[k..] by {
        SameSuffix(next, ps, i, k);
      }
    }
  }

  /** The first slot the phase visits steps on the roster as it was. */
  lemma Phase1Head(rules: Rules, arena: Arena, dt: real, snap: Snapshot,
                   rng: nat -> TickDraw, ps: seq<Entity>, i: nat)
    requires Placeable(rules, arena.world)
    requires i < |ps|
    ensures Phase1(rules, arena, dt, snap, rng, ps, i)[i]
            == Step(rules, arena, dt, snap, rng(i), Phase1(rules, arena, dt, snap, rng, ps, i)[..i] + ps[i..], i)
  {
    var r := Phase1(rules, arena, dt, snap, rng, ps, i);
    var next := ps[i := Step(rules, arena, dt, snap, rng(i), ps, i)];
    assert r == Phase1(rules, arena, dt, snap, rng, next, i + 1);
    SplicePrefix(r, ps, i);
  }

  /** A sequence agreeing with `ps` below `k`, spliced onto `ps` from `k`,
      is `ps` again. */
  lemma SplicePrefix<T>(r: seq<T>, ps: seq<T>, k: nat)
    requires k <= |r| && k <= |ps|
    requires forall j :: 0 <= j < k ==> r[j] == ps[j]
    ensures r[..k] + ps[k..] == ps
  {
    assert forall j :: 0 <= j < |ps| ==> (r[..k] + ps[k..])[j] == ps[j];
  }

  /** Changing one slot leaves every suffix past it as it was. */
  lemma SameSuffix<T>(a: seq<T>, b: seq<T>, i: nat, k: nat)
    requires |a| == |b| && i < k <= |a|
    requires forall j :: 0 <= j < |a| && j != i ==> a[j] == b[j]
    ensures a[k..] == b[k..]
  {
    assert forall j :: 0 <= j < |a| - k ==> a[k..][j] == b[k..][j];
  }

  /** `update`: the movement phase over the whole roster, then every pair's
      collision. */
  function Update(rules: Rules, arena: Arena, math: MathLib, dt: real, snap: Snapshot,
                  rng: nat -> TickDraw, roster: seq<Entity>): (r: seq<Entity>)
    requires Placeable(rules, arena.world)
    ensures |r| == |roster|
    ensures forall k :: 0 <= k < |roster| ==> r[k].id == roster[k].id && r[k].kind == roster[k].kind
    ensures Lawful(math) && AllConsistent(roster) ==> AllConsistent(r)
  {
    var moved := Phase1(rules, arena, dt, snap, rng, roster, 0);
    Phase2(rules, math, moved, Pairs(|moved|))
  }

  // ---------------------------------------------------------------------
  // Properties of the tick
  // ---------------------------------------------------------------------

  /** A dead entity's tick is exactly its timer step: collisions cannot
      reach it, not even when it has just respawned, because a respawned
      entity is invulnerable for 0.8 s. */
  lemma DeadEntityTick(rules: Rules, arena: Arena, math: MathLib, dt: real, snap: Snapshot,
                       rng: nat -> TickDraw, roster: seq<Entity>, k: nat)
    requires Placeable(rules, arena.world)
    requires k < |roster| && !roster[k].alive
    ensures Update(rules, arena, math, dt, snap, rng, roster)[k] == DeadStep(rules, arena.world, roster[k], dt, rng(k).respawn)
  {
    var moved := Phase1(rules, arena, dt, snap, rng, roster, 0);
    assert moved[k] == DeadStep(rules, arena.world, roster[k], dt, rng(k).respawn);
    assert Untouchable(moved[k]);
  }

  /** A dead NPC's pursuit timers are frozen: its intent is only computed
      while it is alive, and a respawn keeps the AI state. */
  lemma DeadAiFrozen(rules: Rules, arena: Arena, math: MathLib, dt: real, snap: Snapshot,
                     rng: nat -> TickDraw, roster: seq<Entity>, k: nat)
    requires Placeable(rules, arena.world)
    requires k < |roster| && !roster[k].alive
    ensures Update(rules, arena, math, dt, snap, rng, roster)[k].ai == roster[k].ai
  {
    DeadEntityTick(rules, arena, math, dt, snap, rng, roster, k);
  }

  /** An entity removed for good (infinite timer) stays exactly as it is. */
  lemma RemovedStaysRemoved(rules: Rules, arena: Arena, math: MathLib, dt: real, snap: Snapshot,
                            rng: nat -> TickDraw, roster: seq<Entity>, k: nat)
    requires Placeable(rules, arena.world)
    requires k < |roster| && !roster[k].alive && roster[k].respawnTimer == Forever
    ensures Update(rules, arena, math, dt, snap, rng, roster)[k] == roster[k]
  {
    DeadEntityTick(rules, arena, math, dt, snap, rng, roster, k);
    assert roster[k].(respawnTimer := Forever) == roster[k];
  }

  /** With the modular constants a player's respawn delay is zero, so an
      eaten player is back, invulnerable, after the very next tick. */
  lemma EatenPlayerReturns(arena: Arena, math: MathLib, dt: real, snap: Snapshot,
                           rng: nat -> TickDraw, roster: seq<Entity>, k: nat)
    requires k < |roster| && !roster[k].alive && roster[k].kind == Player
    requires roster[k].respawnTimer == Finite(RespawnTime(ModularRules, Player))
    requires 0.0 <= dt
    ensures var r := Update(ModularRules, arena, math, dt, snap, rng, roster);
      r[k].alive && r[k].invulnTimer == 0.8 && r[k].radius == roster[k].baseRadius
  {
    DeadEntityTick(ModularRules, arena, math, dt, snap, rng, roster, k);
  }

  /** A held jump key does not fire again: the second of two ticks with the
      jump held leaves vy to gravity (or to a landing). */
  lemma HeldJumpDoesNotRefire(e: Entity, move: int, dt: real, arena: Arena)
    ensures var once := UpdateMovement(e, Intent(move, true), dt, arena);
      !JumpFires(once, Intent(move, true))
  {
  }

  /** Pushing two touching blobs apart by half the overlap each leaves them
      exactly in contact: their new distance is the sum of the radii. */
  lemma SeparationMakesContact(math: MathLib, a: Entity, b: Entity)
    requires Lawful(math) && Touching(math, a, b)
    ensures var (sa, sb) := Separate(math, a, b); Distance(math, sa, sb) == a.radius + b.radius
  {
    var d := Distance(math, a, b);
    var m := a.radius + b.radius;
    var (sa, sb) := Separate(math, a, b);
    assert sb.x - sa.x == Spread(a.x, b.x, d, m);
    assert sb.y - sa.y == Spread(a.y, b.y, d, m);
    PushContact(math, a.x, a.y, b.x, b.y, d, m);
  }

  /** The new offset along one axis between two centres at p and q, d
      apart, after each is pushed away from the other by (m - d) / 2 along
      the line of centres. */
  function Spread(p: real, q: real, d: real, m: real): real
    requires d != 0.0
  {
    var half := (m - d) * 0.5;
    (q + ((q - p) / d) * half) - (p - ((q - p) / d) * half)
  }

  /** The separation step on bare coordinates: centres at distance d < m
      end at distance exactly m. */
  lemma PushContact(math: MathLib, px: real, py: real, qx: real, qy: real, d: real, m: real)
    requires Lawful(math)
    requires d == Hypot(math, qx - px, qy - py) && d != 0.0 && d < m
    ensures Hypot(math, Spread(px, qx, d, m), Spread(py, qy, d, m)) == m
  {
    var ex := Spread(px, qx, d, m);
    var ey := Spread(py, qy, d, m);
    assert ex * ex + ey * ey == m * m by {
      var dx := qx - px;
      var dy := qy - py;
      assert 0.0 < d && d * d == dx * dx + dy * dy by {
        SquareNonNegative(dx);
        SquareNonNegative(dy);
      }
      PushedApart(px, qx, d, m);
      PushedApart(py, qy, d, m);
      ScaledSquareSum(m / d, dx, dy, d, m);
    }
    assert 0.0 <= m by {
      assert 0.0 <= d by {
        SquareNonNegative(qx - px);
        SquareNonNegative(qy - py);
      }
    }
    HypotOfLength(math, ex, ey, m);
  }

  /** One coordinate of the push: the offset between the centres grows by
      the factor m / d. */
  lemma PushedApart(p: real, q: real, d: real, m: real)
    requires 0.0 < d
    ensures Spread(p, q, d, m) == (m / d) * (q - p)
  {
    var t := q - p;
    var n := t / d;
    assert n * d == t;
    assert Spread(p, q, d, m) == t + n * (m - d);
    assert n * m == (m / d) * t;
  }

  lemma ScaledSquareSum(k: real, dx: real, dy: real, d: real, m: real)
    requires 0.0 < d && k == m / d && d * d == dx * dx + dy * dy
    ensures (k * dx) * (k * dx) + (k * dy) * (k * dy) == m * m
  {
    assert (k * dx) * (k * dx) + (k * dy) * (k * dy) == (k * k) * (dx * dx + dy * dy);
    assert (k * k) * (d * d) == (k * d) * (k * d);
    assert k * d == m;
  }

  /** A blob 5 px past the left wall with radius 20 is put back at x = 20,
      moving right at 35% of its old speed. */
  lemma WallScenario(vx: real)
    ensures WallClamp(-5.0, vx, 20.0, 960.0) == (20.0, vx * -0.35)
  {
  }

  /** A blob falling fast onto another directly below it eats it. Here the
      two blobs of radius 20 are 30 apart vertically. */
  lemma StompScenario(rules: Rules, math: MathLib, a: Entity, b: Entity)
    requires Lawful(math)
    requires a.alive && b.alive && a.invulnTimer <= 0.0 && b.invulnTimer <= 0.0
    requires a.radius == 20.0 && b.radius == 20.0
    requires a.x == b.x && b.y == a.y + 30.0
    requires a.vy == 300.0 && b.vy == 0.0
    ensures var r := ResolveBlobCollision(rules, math, a, b);
      r.0.alive && !r.1.alive && r.0.eatenCount == a.eatenCount + 1
  {
    assert b.x - a.x == 0.0 && b.y - a.y == 30.0;
    assert (b.x - a.x) * (b.x - a.x) + (b.y - a.y) * (b.y - a.y) == 30.0 * 30.0;
    HypotOfLength(math, b.x - a.x, b.y - a.y, 30.0);
    assert Distance(math, a, b) == 30.0;
    var (sa, sb) := Separate(math, a, b);
    assert sa.y == a.y - 5.0 && sb.y == b.y + 5.0;
    assert Stomps(sa, sb) && !Stomps(sb, sa);
  }
}

=== FILE: input.dfy ===
/** Intent resolution (js/input.js and the same functions of game.js): each
    entity's `{move, jump}` for one tick, read from the keyboard and an
    optional gamepad for players, and chosen by the pursuit policy for NPCs.
    The hardware is a read-only `Snapshot`; the policy's random choices are
    explicit draws. */
module Input {
  import opened Base
  import opened Config
  import opened Entities

  /** What an entity wants this tick; `move` is -1, 0 or +1. */
  datatype Intent = Intent(move: int, jump: bool)

  const Neutral: Intent := Intent(0, false)

  /** One connected controller: its axes and which buttons are pressed. */
  datatype Pad = Pad(axes: seq<real>, buttons: seq<bool>)

  /** The input state the tick reads: the held key codes and
      `navigator.getGamepads()`, indexed by pad index, with empty slots. */
  datatype Snapshot = Snapshot(pressed: set<string>, pads: seq<Option<Pad>>)

  // ---------------------------------------------------------------------
  // Players
  // ---------------------------------------------------------------------

  /** The keyboard's contribution alone. */
  function KeyboardIntent(km: KeyMap, pressed: set<string>): (r: Intent)
    ensures r.move == (if km.right in pressed then 1 else 0) - (if km.left in pressed then 1 else 0)
    ensures r.jump <==> km.jump in pressed
  {
    var left := if km.left in pressed then -1 else 0;
    Intent(if km.right in pressed then left + 1 else left, km.jump in pressed)
  }

  /** The pad a player's input is read from this tick, if any. The modular
      revision reads any bound pad; the single-file revision only when the
      player's source is the gamepad. A pad index with no connected pad
      behind it reads as no pad. */
  function BoundPad(rules: Rules, e: Entity, snap: Snapshot): (p: Option<Pad>)
    ensures p.Some? ==> e.gamepadIndex.Some? && e.gamepadIndex.value < |snap.pads|
                        && snap.pads[e.gamepadIndex.value] == p
    ensures rules.revision == Legacy && e.source != Gamepad ==> p.None?
    ensures (rules.revision == Modular || e.source == Gamepad)
            && e.gamepadIndex.Some? && e.gamepadIndex.value < |snap.pads|
            ==> p == snap.pads[e.gamepadIndex.value]
  {
    if rules.revision == Legacy && e.source != Gamepad then None
    else match e.gamepadIndex
      case None => None
      case Some(i) => if i < |snap.pads| then snap.pads[i] else None
  }

  /** `pad.axes[0] || 0`. */
  function StickX(pad: Pad): real
  {
    if |pad.axes| > 0 then pad.axes[0] else 0.0
  }

  /** `pad.buttons[k] && pad.buttons[k].pressed`. */
  predicate ButtonDown(pad: Pad, k: nat)
  {
    k < |pad.buttons| && pad.buttons[k]
  }

  /** Buttons 0, 1 and 11 all jump. */
  predicate PadJump(pad: Pad)
  {
    ButtonDown(pad, 0) || ButtonDown(pad, 1) || ButtonDown(pad, 11)
  }

  /** `inputForPlayer`: keyboard first; a bound pad's stick outside the
      +-0.2 dead zone overrides the move, and its jump buttons add to the
      jump key. It reads the entity but never changes it. */
  function InputForPlayer(rules: Rules, e: Entity, snap: Snapshot): (r: Intent)
    ensures -1 <= r.move <= 1
    ensures r.jump <==> e.keyboardMap.jump in snap.pressed || (BoundPad(rules, e, snap).Some? && PadJump(BoundPad(rules, e, snap).value))
    ensures BoundPad(rules, e, snap).None? ==> r == KeyboardIntent(e.keyboardMap, snap.pressed)
    ensures BoundPad(rules, e, snap).Some? ==>
      var axis := StickX(BoundPad(rules, e, snap).value);
      r.move == (if axis > 0.2 then 1 else if axis < -0.2 then -1 else KeyboardIntent(e.keyboardMap, snap.pressed).move)
  {
    var keys := KeyboardIntent(e.keyboardMap, snap.pressed);
    match BoundPad(rules, e, snap)
    case None => keys
    case Some(pad) =>
      var axis := StickX(pad);
      Intent(if axis > 0.2 then 1 else if axis < -0.2 then -1 else keys.move, keys.jump || PadJump(pad))
  }

  /** A single-file-revision keyboard player hears only the keyboard: two
      snapshots with the same held keys give it the same intent, whatever
      the pads report. */
  lemma KeyboardPlayerIgnoresPads(rules: Rules, e: Entity, a: Snapshot, b: Snapshot)
    requires rules.revision == Legacy && e.source == Keyboard
    requires a.pressed == b.pressed
    ensures InputForPlayer(rules, e, a) == InputForPlayer(rules, e, b)
  {
    assert BoundPad(rules, e, a).None? && BoundPad(rules, e, b).None?;
  }

  /** A stick pushed past the dead zone decides the move whatever keys are
      held, and the keys still decide the jump together with the pad. */
  lemma StickOverridesKeys(rules: Rules, e: Entity, a: Snapshot, pad: Pad)
    requires (rules.revision == Modular || e.source == Gamepad)
    requires e.gamepadIndex.Some? && e.gamepadIndex.value < |a.pads|
    requires a.pads[e.gamepadIndex.value] == Some(pad)
    requires StickX(pad) > 0.2 || StickX(pad) < -0.2
    ensures InputForPlayer(rules, e, a).move == (if StickX(pad) > 0.2 then 1 else -1)
    ensures InputForPlayer(rules, e, a).jump <==> e.keyboardMap.jump in a.pressed || PadJump(pad)
  {
  }

  // ---------------------------------------------------------------------
  // NPC pursuit
  // ---------------------------------------------------------------------

  /** The random draws one NPC decision may consume. */
  datatype NpcDraws = NpcDraws(
    roamTime: Draw,       // new roam duration when the roam timer expires
    roamDir: Draw,        // new roam direction when the roam timer expires
    chaseCooldown: Draw,  // cooldown after a chase jump
    hop: Draw,            // the 1.2% spontaneous hop coin
    hopCooldown: Draw,    // cooldown after a hop
    roam: Draw)           // the 10% roam-fallback coin

  /** Whom an NPC may chase: any other living entity (compared by id). */
  predicate Candidate(e: Entity, o: Entity)
  {
    o.alive && o.id != e.id
  }

  /** The pursuit distance, with vertical offsets weighted 0.45. */
  function Weighted(e: Entity, o: Entity): real
  {
    Abs(o.x - e.x) + Abs(o.y - e.y) * 0.45
  }

  /** The index of the NPC's target: the first candidate in roster order
      with the least weighted distance, or None when there is no candidate. */
  function PickTarget(e: Entity, roster: seq<Entity>): (t: Option<nat>)
    ensures t.None? <==> forall k :: 0 <= k < |roster| ==> !Candidate(e, roster[k])
    ensures t.Some? ==> t.value < |roster| && Candidate(e, roster[t.value])
    ensures t.Some? ==> forall k :: 0 <= k < |roster| && Candidate(e, roster[k]) ==>
      Weighted(e, roster[t.value]) <= Weighted(e, roster[k])
    ensures t.Some? ==> forall k :: 0 <= k < t.value && Candidate(e, roster[k]) ==>
      Weighted(e, roster[t.value]) < Weighted(e, roster[k])
  {
    if |roster| == 0 then None
    else
      var last := |roster| - 1;
      var best := PickTarget(e, roster[..last]);
      if !Candidate(e, roster[last]) then best
      else if best.None? || Weighted(e, roster[last]) < Weighted(e, roster[best.value]) then Some(last)
      else best
  }

  /** Whether the chase jump fires: the target is within 100 horizontally,
      more than 8 above, and the cooldown (after this tick's decrement) has
      run out. */
  predicate ChaseReady(e: Entity, target: Entity, dt: real)
  {
    Abs(target.x - e.x) < 100.0 && target.y < e.y - 8.0 && e.ai.jumpCooldown - dt <= 0.0
  }

  /** `inputForNpc`: chase the target, age the timers, maybe re-roll the
      roam, jump at a target above or hop at random, and fall back to the
      roam direction when there is no directed move. Returns the intent and
      the NPC's new AI state. */
  function InputForNpc(e: Entity, roster: seq<Entity>, dt: real, d: NpcDraws): (r: (Intent, AiState))
    ensures -1 <= r.0.move <= 1
    ensures PickTarget(e, roster).None? ==> r == (Neutral, e.ai)
    ensures PickTarget(e, roster).Some? ==>
      var target := roster[PickTarget(e, roster).value];
      var dx := target.x - e.x;
      && (14.0 < Abs(dx) ==> r.0.move == (if dx < 0.0 then -1 else 1))
      && (Abs(dx) <= 14.0 ==> r.0.move == 0 || r.0.move == r.1.roamDir)
      && (e.ai.roamTimer - dt <= 0.0 ==> 0.8 <= r.1.roamTimer < 2.0)
      && (0.0 < e.ai.roamTimer - dt ==> r.1.roamTimer == e.ai.roamTimer - dt && r.1.roamDir == e.ai.roamDir)
      && (ChaseReady(e, target, dt) ==> r.0.jump && 0.55 <= r.1.jumpCooldown < 0.95)
      && (r.0.jump && !ChaseReady(e, target, dt) ==>
            e.onGround && e.ai.jumpCooldown - dt <= -0.2 && 0.7 <= r.1.jumpCooldown < 1.2)
      && (!r.0.jump ==> r.1.jumpCooldown == e.ai.jumpCooldown - dt)
  {
    match PickTarget(e, roster)
    case None => (Neutral, e.ai)
    case Some(t) =>
      var target := roster[t];
      var dx := target.x - e.x;
      var chaseMove := if Abs(dx) > 14.0 then (if dx < 0.0 then -1 else 1) else 0;
      var cooldown := e.ai.jumpCooldown - dt;
      var roamTimer := e.ai.roamTimer - dt;
      var reroll := roamTimer <= 0.0;
      var roamTimer := if reroll then 0.8 + d.roamTime * 1.2 else roamTimer;
      var roamDir := if reroll then CoinDir(d.roamDir) else e.ai.roamDir;
      var chase := Abs(dx) < 100.0 && target.y < e.y - 8.0 && cooldown <= 0.0;
      var hop := !chase && e.onGround && cooldown <= -0.2 && d.hop < 0.012;
      var cooldown := if chase then 0.55 + d.chaseCooldown * 0.4
                      else if hop then 0.7 + d.hopCooldown * 0.5
                      else cooldown;
      var move := if chaseMove == 0 && d.roam < 0.1 then roamDir else chaseMove;
      (Intent(move, chase || hop), AiState(cooldown, roamDir, roamTimer))
  }

  /** `inputForEntity`: NPCs ask the pursuit policy, players the controls;
      only an NPC's AI state can change. */
  function InputForEntity(rules: Rules, e: Entity, roster: seq<Entity>, dt: real, snap: Snapshot, d: NpcDraws): (r: (Intent, AiState))
    ensures -1 <= r.0.move <= 1
    ensures e.kind == Player ==> r == (InputForPlayer(rules, e, snap), e.ai)
    ensures e.kind == Npc ==> r == InputForNpc(e, roster, dt, d)
  {
    if e.kind == Npc then InputForNpc(e, roster, dt, d) else (InputForPlayer(rules, e, snap), e.ai)
  }

  /** The target search as the source runs it: one forward pass over the
      roster keeping the best weighted distance seen so far (starting from
      "infinity", here no best yet) and replacing it only on a strictly
      smaller one. It finds the same target as `PickTarget`. */
  method ChooseTarget(e: Entity, roster: seq<Entity>) returns (t: Option<nat>)
    ensures t == PickTarget(e, roster)
  {
    t := None;
    var i := 0;
    while i < |roster|
      invariant 0 <= i <= |roster|
      invariant t == PickTarget(e, roster[..i])
    {
      assert roster[..i + 1][..i] == roster[..i];
      if Candidate(e, roster[i]) && (t.None? || Weighted(e, roster[i]) < Weighted(e, roster[t.value])) {
        t := Some(i);
      }
      i := i + 1;
    }
    assert roster[..i] == roster;
  }

  /** The three properties of `PickTarget` pin the target down: any
      candidate that is no farther than every candidate and strictly nearer
      than every earlier one is the chosen target. */
  lemma TargetUnique(e: Entity, roster: seq<Entity>, j: nat)
    requires j < |roster| && Candidate(e, roster[j])
    requires forall k :: 0 <= k < |roster| && Candidate(e, roster[k]) ==> Weighted(e, roster[j]) <= Weighted(e, roster[k])
    requires forall k :: 0 <= k < j && Candidate(e, roster[k]) ==> Weighted(e, roster[j]) < Weighted(e, roster[k])
    ensures PickTarget(e, roster) == Some(j)
  {
  }
}

=== FILE: legacy.dfy ===
/** The single-file revision (game.js) as an instance of the shared model:
    its constants are `LegacyRules`, its arena is `LegacyArena` with one
    platform, and its tick is `Gameplay.Update`. What is specific to it is
    the roster construction, where each connected pad gets a player of its
    own after two keyboard players. */
module Legacy {
  import opened Base
  import opened Config
  import opened Entities
  import opened Input
  import opened Gameplay

  /** The single-file revision's spawn: 30-unit players and NPCs of radius
      in [19, 27), all on the floor line and all airborne, coloured by id,
      with no control slot. */
  lemma LegacySpawn(world: World, id: nat, kind: Kind, source: Source, d: SpawnDraws)
    requires world.width != 180
    ensures var e := CreateEntity(LegacyRules, world, id, kind, source, d);
      && (kind == Player ==> e.baseRadius == 30.0)
      && (kind == Npc ==> 19.0 <= e.baseRadius < 27.0)
      && e.y == world.floorY - e.radius
      && !e.onGround && e.controlSlot == None
      && e.color == LegacyColors[id % 8]
      && Consistent(e)
  {
  }

  /** The first `count` players, all on the keyboard. */
  function KeyboardPlayers(world: World, count: nat, draws: nat -> SpawnDraws): (r: seq<Entity>)
    requires world.width != 180
    ensures |r| == count
    ensures forall k :: 0 <= k < count ==>
      && r[k].id == k && r[k].kind == Player && r[k].source == Keyboard
      && r[k].gamepadIndex == None && Consistent(r[k])
  {
    var r := seq(count, i requires 0 <= i < count => CreateEntity(LegacyRules, world, i, Player, Keyboard, draws(i)));
    assert forall k :: 0 <= k < count ==> r[k] == CreateEntity(LegacyRules, world, k, Player, Keyboard, draws(k));
    assert forall k :: 0 <= k < count ==> Consistent(r[k]) by {
      forall k | 0 <= k < count
        ensures Consistent(r[k])
      {
        LegacySpawn(world, k, Player, Keyboard, draws(k));
      }
    }
    r
  }

  /** One step of the pad loop: the pad goes to player `owner`, which is
      created (as a gamepad player) when the roster has no entry there yet;
      either way the player is switched to the gamepad. */
  function BindPad(world: World, es: seq<Entity>, owner: nat, padIndex: nat, draws: nat -> SpawnDraws): (r: seq<Entity>)
    requires world.width != 180
    requires owner <= |es|
    ensures |r| == (if owner < |es| then |es| else |es| + 1)
    ensures forall k :: 0 <= k < |es| && k != owner ==> r[k] == es[k]
    ensures r[owner].source == Gamepad && r[owner].gamepadIndex == Some(padIndex)
    ensures owner < |es| ==> r[owner] == es[owner].(source := Gamepad, gamepadIndex := Some(padIndex))
    ensures owner == |es| ==> r[owner].id == owner && r[owner].kind == Player && Consistent(r[owner])
  {
    if owner < |es| then
      es[owner := es[owner].(source := Gamepad, gamepadIndex := Some(padIndex))]
    else
      LegacySpawn(world, owner, Player, Gamepad, draws(owner));
      var created := CreateEntity(LegacyRules, world, owner, Player, Gamepad, draws(owner));
      es + [created.(gamepadIndex := Some(padIndex))]
  }

  /** `pads.forEach((pad, idx) => ...)` from position `idx` on: pad idx
      belongs to player idx + 2. */
  function AssignPads(world: World, es: seq<Entity>, pads: seq<nat>, idx: nat, draws: nat -> SpawnDraws): (r: seq<Entity>)
    requires world.width != 180
    requires idx <= |pads| && idx + 2 <= |es|
    ensures |r| == (if |es| < |pads| + 2 then |pads| + 2 else |es|)
    ensures forall k :: 0 <= k < |es| && (k < idx + 2 || |pads| + 2 <= k) ==> r[k] == es[k]
    ensures forall k :: idx + 2 <= k < |pads| + 2 ==> r[k].source == Gamepad && r[k].gamepadIndex == Some(pads[k - 2])
    ensures forall k :: idx + 2 <= k < |pads| + 2 && k < |es| ==>
      r[k] == es[k].(source := Gamepad, gamepadIndex := Some(pads[k - 2]))
    ensures forall k :: |es| <= k < |r| ==> r[k].id == k && r[k].kind == Player && Consistent(r[k])
    decreases |pads| - idx
  {
    if idx == |pads| then es
    else
      var next := BindPad(world, es, idx + 2, pads[idx], draws);
      AssignPads(world, next, pads, idx + 1, draws)
  }

  /** How many players the single-file roster ends up with: two keyboard
      players, plus one per connected pad beyond the first two ids. */
  function LegacyPlayerCount(padCount: nat): nat
  {
    if padCount == 0 then 2 else padCount + 2
  }

  /** The player part of the single-file roster. It starts with
      `max(2, pads + 1)` keyboard players; pad `idx` then goes to player
      `idx + 2`, which appends one more player when there is at least one
      pad. */
  function LegacyPlayers(world: World, pads: seq<nat>, draws: nat -> SpawnDraws): (r: seq<Entity>)
    requires world.width != 180
    ensures |r| == LegacyPlayerCount(|pads|)
    ensures forall k :: 0 <= k < |r| ==> r[k].id == k && r[k].kind == Player && Consistent(r[k])
    ensures forall k :: 0 <= k < 2 ==> r[k].source == Keyboard && r[k].gamepadIndex == None
    ensures forall k :: 2 <= k < |r| ==> r[k].source == Gamepad && r[k].gamepadIndex == Some(pads[k - 2])
  {
    var start := if |pads| + 1 < 2 then 2 else |pads| + 1;
    var keyboard := KeyboardPlayers(world, start, draws);
    var r := AssignPads(world, keyboard, pads, 0, draws);
    forall k | 0 <= k < |r|
      ensures r[k].id == k && r[k].kind == Player && Consistent(r[k])
    {
      if k < start && 2 <= k {
        SameShape(keyboard[k], r[k]);
      }
    }
    r
  }

  /** The NPCs, with ids continuing from `offset`. */
  function LegacyNpcs(world: World, offset: nat, draws: nat -> SpawnDraws): (r: seq<Entity>)
    requires world.width != 180
    ensures |r| == LegacyNpcCount
    ensures forall k :: 0 <= k < |r| ==>
      && r[k].id == offset + k && r[k].kind == Npc && r[k].source == Ai
      && r[k].gamepadIndex == None && !r[k].onGround && Consistent(r[k])
  {
    var npcs := seq(LegacyNpcCount, i requires 0 <= i < LegacyNpcCount =>
      CreateEntity(LegacyRules, world, offset + i, Npc, Ai, draws(offset + i)));
    assert forall k :: 0 <= k < LegacyNpcCount ==>
      npcs[k] == CreateEntity(LegacyRules, world, offset + k, Npc, Ai, draws(offset + k));
    assert forall k :: 0 <= k < LegacyNpcCount ==> !npcs[k].onGround && Consistent(npcs[k]) by {
      forall k | 0 <= k < LegacyNpcCount
        ensures !npcs[k].onGround && Consistent(npcs[k])
      {
        LegacySpawn(world, offset + k, Npc, Ai, draws(offset + k));
      }
    }
    npcs
  }

  /** `buildEntities` of the single-file revision: the players, then the
      NPCs with ids continuing after them. */
  function BuildLegacy(world: World, pads: seq<nat>, draws: nat -> SpawnDraws): (r: seq<Entity>)
    requires world.width != 180
    ensures |r| == LegacyPlayerCount(|pads|) + LegacyNpcCount
    ensures forall k :: 0 <= k < |r| ==> r[k].id == k
    ensures forall k :: 0 <= k < |r| ==> (r[k].kind == Player <==> k < LegacyPlayerCount(|pads|))
    ensures forall k :: 0 <= k < 2 ==> r[k].source == Keyboard && r[k].gamepadIndex == None
    ensures forall k :: 2 <= k < LegacyPlayerCount(|pads|) ==>
      r[k].source == Gamepad && r[k].gamepadIndex == Some(pads[k - 2])
    ensures forall k :: LegacyPlayerCount(|pads|) <= k < |r| ==>
      r[k].source == Ai && r[k].gamepadIndex == None && !r[k].onGround
    ensures AllConsistent(r)
  {
    var players := LegacyPlayers(world, pads, draws);
    var npcs := LegacyNpcs(world, |players|, draws);
    var r := players + npcs;
    assert forall k :: 0 <= k < |players| ==> r[k] == players[k];
    assert forall k :: |players| <= k < |r| ==> r[k] == npcs[k - |players|];
    r
  }

  /** A single-file player is only read from its pad when its source is the
      gamepad; the modular revision reads any bound pad. */
  lemma PadNeedsGamepadSource(e: Entity, snap: Snapshot)
    requires e.source != Gamepad
    ensures InputForPlayer(LegacyRules, e, snap) == KeyboardIntent(e.keyboardMap, snap.pressed)
    ensures e.gamepadIndex.Some? && e.gamepadIndex.value < |snap.pads| ==>
      BoundPad(ModularRules, e, snap) == snap.pads[e.gamepadIndex.value]
  {
  }

  /** The single-file respawn: players step across the arena by 180 per id
      (wrapping), NPCs land on the floor at a random spot; the delays are
      2.2 s for players and 3.2 s for NPCs. */
  lemma LegacyRespawn(world: World, e: Entity, draw: Draw)
    requires world.width != 180
    ensures var r := RespawnEntity(LegacyRules, world, e, draw);
      && (e.kind == Player ==>
            r.x == 90.0 + JsRem(e.id * 180, world.width - 180) as real && r.y == e.baseRadius + 8.0 && !r.onGround)
      && (e.kind == Npc ==> r.y == world.floorY - e.baseRadius && r.onGround)
      && r.invulnTimer == 0.8
    ensures ScheduleRespawn(LegacyRules, e).respawnTimer == Finite(if e.kind == Player then 2.2 else 3.2)
  {
  }

  /** The single platform: the general highest-platform landing, applied to
      a one-element list, is the single check of the single-file revision. */
  lemma SinglePlatformLanding(p: Platform, q: Probe)
    ensures LandingY([p], q) == if Lands(p, q) then Some(Top(p) - q.radius) else None
  {
    assert [p][..0] == [];
  }

  /** In the single-file revision an eaten player waits out its 2.2 s: a tick
      shorter than what is left only counts the timer down. */
  lemma EatenPlayerWaits(width: nat, height: nat, math: MathLib, dt: real, snap: Snapshot,
                         rng: nat -> TickDraw, roster: seq<Entity>, k: nat, left: real)
    requires width != 180
    requires k < |roster| && !roster[k].alive && roster[k].respawnTimer == Finite(left)
    requires dt < left
    ensures var r := Update(LegacyRules, LegacyArena(width, height), math, dt, snap, rng, roster);
      !r[k].alive && r[k].respawnTimer == Finite(left - dt)
  {
    DeadEntityTick(LegacyRules, LegacyArena(width, height), math, dt, snap, rng, roster, k);
  }
}
